=== FILE: README.md ===
# fzseries-api, modelled in Dafny

fzseries-api is a Python client for the fztvseries site. It fetches the
site's listing and search pages and turns them into typed results: series
with their links and covers, and episodes with their files, air date,
synopsis and credits. It also follows the First/Prev/Next/Last navigation
links between result pages.

This project models the part of that client that decides things:

- how a relative link becomes an absolute one, and the membership check
  guarding every closed set of options;
- which page each catalogue filter reads, and how a navigator picks the
  next page from earlier results;
- what the two listing handlers extract from a parsed results page;
- what a fetch does around the network: load the index page, bootstrap the
  session, reject HTTP errors, recognise the "download keys have expired"
  notice, and build the search request.

Modules, in dependency order:

| module | file | models |
|---|---|---|
| `Wrappers` | `wrappers.dfy` | `Option` and `Result` |
| `Text` | `text.dfy` | Python's `str.strip`, `str.split`, `str.replace` and substring tests |
| `Utils` | `utils.dfy` | `utils.py`: site URLs, `get_absolute_url`, `assert_membership` |
| `Models` | `models.dfy` | `models.py`: one datatype per record |
| `Markup` | `markup.dfy` | the parsed page the handlers read, and the two regular-expression rewrites of raw markup |
| `Handlers` | `handlers.dfy` | `handlers.py`: both listing handlers |
| `Hunter` | `hunter.dfy` | `hunter.py`: `Index`, `Index.search`, `Metadata.get_resource` |
| `Filters` | `filters.dfy` | `filters.py`: every filter and its `get_contents`/`get_results` |

Exceptions become values. A handler returns `ZeroSearchResults`, or
`MalformedMarkup` wherever the Python code would fail with an
`AttributeError`, `IndexError` or `UnboundLocalError` on unexpected markup.
A fetch returns `LoadIndexError`, `HttpError`, `SessionExpired(url)`, or
`MalformedExpiryNotice` when the expiry notice has no link to follow.

The network is a parameter. `GetResource` receives the responses its
requests would get, plus a flag saying whether the session cookie is set,
and it reports the requests it issues in order. HTML parsing is also a
parameter: the handlers receive a `Markup.Page` of extracted strings and
anchors, and the expiry check receives a function listing the anchors of one
line of markup.

## Model

| member | source | states |
|---|---|---|
| Utils.DefaultSiteIsThirdMirror | src/fzseries_api/utils.py:11-18 | There are three mirrors, and the default site is the third, "https://fztvseries.live/", which ends in a slash. |
| Utils.PosixJoin | src/fzseries_api/utils.py:31 | `posixpath.join`: an absolute second part replaces the first. Otherwise the result starts with the first part and ends with the second, and is at most one character longer than the two together. An empty first part yields the second. Only slashes lie between the two parts, and where a non-empty first part meets the second there is exactly one slash. |
| Utils.AbsoluteUrl | src/fzseries_api/utils.py:27-31 | A link without a leading slash is appended to the site. One leading slash is dropped first. A link with two leading slashes comes back as the root path after the first slash. |
| Utils.AbsoluteUrlOfRelative | src/fzseries_api/utils.py:18-31 | For a link `r` without a leading slash the result is exactly "https://fztvseries.live/" + r, which lies under the default site. |
| Utils.AbsoluteUrlDropsOneSlash | src/fzseries_api/utils.py:29-31 | "/" + r and r resolve to the same URL when r has no leading slash. |
| Utils.AbsoluteUrlOfEmpty | src/fzseries_api/utils.py:27-31 | The empty link resolves to the site URL unchanged. |
| Utils.AbsoluteUrlOfDoubleSlash | src/fzseries_api/utils.py:29-31 | A protocol-relative link "//x" becomes the root path "/x", which is not under the default site. |
| Utils.AssertMembership | src/fzseries_api/utils.py:34-42 | Passes exactly when the value is one of the elements; a failure carries the identity, the value and the elements. |
| Text.Strip | src/fzseries_api/handlers.py:31 | `str.strip` never lengthens its input. |
| Text.StripBounds | src/fzseries_api/handlers.py:31 | The stripped text is a slice of the input with only whitespace cut off either end, and it neither starts nor ends with whitespace. |
| Text.StripTrims | src/fzseries_api/handlers.py:31 | The stripped text is the input with only whitespace removed from either end, and it neither starts nor ends with whitespace. |
| Text.StripUnchanged | src/fzseries_api/handlers.py:114 | Text that neither starts nor ends with whitespace is left unchanged by stripping. |
| Text.StripIdempotent | src/fzseries_api/handlers.py:114 | Stripping twice gives the same result as stripping once. |
| Text.Split | src/fzseries_api/handlers.py:110 | `str.split(sep)` yields one more piece than there are separators; no piece contains the separator; joining the pieces with the separator gives back the input. |
| Text.SplitHasSecond | src/fzseries_api/handlers.py:119 | There are at least two pieces exactly when the separator occurs in the text. |
| Text.SplitAtFirst | src/fzseries_api/handlers.py:122 | The first piece is the text before the first separator, and the rest is the split of the text after it. |
| Text.RemoveAll | src/fzseries_api/handlers.py:100 | `str.replace(c, "")` leaves no `c`, shortens the text by the number of occurrences of `c`, keeps text without `c` unchanged, and introduces no new character. |
| Text.RemoveAllConcat | src/fzseries_api/handlers.py:100 | Removing a character from a concatenation removes it from each part in place, so the kept characters stay in their order. |
| Text.FirstIndex | src/fzseries_api/handlers.py:118 | The position of the first occurrence: the character there is the separator, and none occurs before it. |
| Text.CountPositive | src/fzseries_api/handlers.py:119 | A character is counted at least once exactly when it occurs. |
| Markup.WordRun | src/fzseries_api/handlers.py:107 | The run of `\w` characters at the start of the text: all word characters, ending at a non-word character or at the end. |
| Markup.TagMatch | src/fzseries_api/handlers.py:107 | A match of the backtracking pattern `<\W?\w*/?>` at the start of the text is a tag by the independent `IsTag` reading of the pattern. No match means that no prefix of the text is such a tag. The match is the longest such prefix, as the greedy `\W?` makes it. |
| Markup.ReplaceTags | src/fzseries_api/handlers.py:107 | Text without a `<` is left unchanged by the tag rewrite. |
| Markup.ReplaceOpeningTag | src/fzseries_api/handlers.py:107 | An opening tag `<name>` with a word-character name becomes a single newline. |
| Markup.ReplaceClosingTag | src/fzseries_api/handlers.py:107 | A closing tag `</name>` becomes a single newline. |
| Markup.ReplaceSelfClosingTag | src/fzseries_api/handlers.py:107 | A self-closing tag `<name/>` such as `<br/>` becomes a single newline. |
| Markup.TagAtFront | src/fzseries_api/handlers.py:107 | Any opening, closing or self-closing tag with a word-character name at the front becomes a single newline, and the rest is rewritten on its own. |
| Markup.ReplaceTagsPlain | src/fzseries_api/handlers.py:107 | Text without a `<` is copied through the tag rewrite in front of the rewrite of what follows it. |
| Markup.CollapseNewlines | src/fzseries_api/handlers.py:104-106 | Collapsing blank-line pairs never lengthens the text and leaves text without "\n\n" unchanged. |
| Markup.CollapseKeepsText | src/fzseries_api/handlers.py:104-106 | Collapsing removes newlines only: with every newline removed, the text before and after collapsing is the same. |
| Markup.CollapsePlain | src/fzseries_api/handlers.py:104-106 | Text without a newline is copied through the collapse in front of the collapse of what follows it. |
| Markup.MetadataLines | src/fzseries_api/handlers.py:103-111 | The metadata line list has at least one line, and no line contains a newline. |
| Markup.ReplaceTagsOfSmall | src/fzseries_api/handlers.py:107 | In `<small><b>t</b><br/>l1<br/>l2</small>` with tag-free, newline-free lines, each of the seven tags becomes one newline and the lines are kept. |
| Markup.CollapseOfSmall | src/fzseries_api/handlers.py:104-106 | The two blank-line pairs left by adjacent tags each collapse to one newline, leaving every line on its own between single newlines. |
| Markup.StripOfSmall | src/fzseries_api/handlers.py:109 | Stripping removes only the newline at each end when the first line does not start and the last does not end with whitespace. |
| Markup.SplitOfSmall | src/fzseries_api/handlers.py:110 | Three newline-free lines joined by newlines split back into exactly those three lines. |
| Markup.MetadataLinesOfSmall | src/fzseries_api/handlers.py:103-111 | The whole pipeline recovers the lines of `<small><b>t</b><br/>l1<br/>l2</small>` as `[t, l1, l2]`, given lines free of `<` and newlines, with no whitespace at the start of `t` or at the end of `l2`. |
| Handlers.SliceFrom | src/fzseries_api/handlers.py:21 | Python's `s[2:]`: the prefix up to the position, clipped to the length, followed by the result gives back the whole sequence. The result has the remaining length, or is empty when the position is past the end. |
| Handlers.Collect | src/fzseries_api/handlers.py:88-96 | A handler loop succeeds exactly when every element succeeds; it then yields one result per element, in order; a failure is the failure of some element. |
| Handlers.LastLabelled | src/fzseries_api/handlers.py:47-57 | The anchor found is one of the anchors and carries the caption, and no anchor after it carries the caption. Nothing is found exactly when no anchor carries the caption. |
| Handlers.LastLabelledAppend | src/fzseries_api/handlers.py:47-57 | A later anchor with the same caption overrides every earlier one. |
| Handlers.SlotCons | src/fzseries_api/handlers.py:47-57 | The first anchor decides a slot only when no later anchor has that caption. |
| Handlers.Classify | src/fzseries_api/handlers.py:48-57 | One iteration of the navigator loop is the last-anchor rule applied to that one anchor: only the slot named by its exact caption takes its href. |
| Handlers.ScanAnchors | src/fzseries_api/handlers.py:47-57 | The navigator loop sets each of the four links from the last anchor captioned First, Prev, Next or Last, taking its raw href; other captions are ignored; a slot with no such anchor keeps its value. |
| Handlers.NavigatorLinks | src/fzseries_api/handlers.py:44-57 | All four links are absent unless there are more than three navigation boxes; then they come from the last box only, each from the last anchor with that caption. |
| Handlers.SeriesItem | src/fzseries_api/handlers.py:29-42 | A series box yields an item exactly when it has a link, a cover and a last small. The item has the stripped title and synopsis, and the link and cover made absolute. |
| Handlers.SearchResultsHandler | src/fzseries_api/handlers.py:12-67 | Zero results exactly when at most two series boxes exist. Otherwise it succeeds exactly when every box from the third on is complete. Item i is made from box i+2, in order. The links come from the navigation boxes inside the last series box. |
| Handlers.Identity | src/fzseries_api/handlers.py:90 | A file's identity is the last character of its stripped anchor text, or empty when that text has at most one character. |
| Handlers.EpisodeFileOf | src/fzseries_api/handlers.py:89-95 | A file anchor yields a file exactly when it has an href; the url is made absolute, next to its identity. |
| Handlers.AiredOnToken | src/fzseries_api/handlers.py:100 | A date token exists exactly when the `<i>` text has a space. |
| Handlers.AiredOnTokenWord | src/fzseries_api/handlers.py:100 | The token is the word right after the first space, with every `)` removed; it holds neither `)` nor a space. |
| Handlers.LastItalic | src/fzseries_api/handlers.py:97-100 | Nothing is found exactly when no small has an `<i>`. What is found is the `<i>` of a small after which no small has one, so a later `<i>` overrides an earlier one. |
| Handlers.ScanAiredOn | src/fzseries_api/handlers.py:97-100 | The date loop succeeds exactly when every `<i>` holds a space. The last small with an `<i>` decides the date; without one, the date carried in from the previous episode survives. |
| Handlers.FieldValue | src/fzseries_api/handlers.py:114-126 | A credit line gives a value exactly when its stripped text has a colon. The value is the stripped text between the first and second colon. |
| Handlers.MetadataStep | src/fzseries_api/handlers.py:113-126 | One step of the metadata loop writes the synopsis at position 0, and at positions 1, 2, 3 the stars, director or writer when the line has a colon; every other field is kept. |
| Handlers.PickFieldStep | src/fzseries_api/handlers.py:113-126 | A credit field after the whole loop is what the first line leaves it, carried through the rest of the loop. |
| Handlers.ScanMetadata | src/fzseries_api/handlers.py:113-126 | Each position of the metadata loop writes only its own field: position 0 the synopsis, positions 1, 2, 3 the stars, director and writer. |
| Handlers.ExtractMetadata | src/fzseries_api/handlers.py:102-126 | Exactly four lines fill nothing. Otherwise line 0 is the synopsis, and lines 1 to 3 give stars, director and writer when they contain a colon. Lines from index 4 on are ignored. |
| Handlers.EpisodeItem | src/fzseries_api/handlers.py:84-139 | An episode box yields an item exactly when it is complete and a date is known, either its own or one carried in. The date carried on is the item's air date: the box's last `<i>` date, or the carried one. |
| Handlers.EpisodeItemMatches | src/fzseries_api/handlers.py:84-126 | The item has the box's stripped title, absolute cover, one file per file anchor in order, and the metadata of this box alone. |
| Handlers.EpisodeItems | src/fzseries_api/handlers.py:83-139 | The episode loop succeeds exactly when every box is complete and the first box has a date. It then yields as many items as boxes. |
| Handlers.EpisodeItemsMatch | src/fzseries_api/handlers.py:83-139 | Item i of the episode loop is what the handler makes of box i, for every i. |
| Handlers.EpisodeSearchResultsHandler | src/fzseries_api/handlers.py:70-166 | Zero results exactly when there is no episode box. Otherwise it yields one episode per box, in order, and the links come from the page's navigation boxes. |
| Handlers.AiredAfterCons | src/fzseries_api/handlers.py:97-100 | Reading the boxes one at a time: the date after [b] + rest is the date after rest, starting from the date after b. |
| Handlers.EpisodeItemsCons | src/fzseries_api/handlers.py:83-100 | The first item carries the date after the first box, and the loop continues from that date. |
| Handlers.AiredAfterOne | src/fzseries_api/handlers.py:97-100 | The date after one box is the date its own smalls leave. |
| Handlers.AiredOnPrepend | src/fzseries_api/handlers.py:97-102 | Prepending a box and its item keeps each item carrying the date after its prefix. |
| Handlers.EpisodeItemsAiredOn | src/fzseries_api/handlers.py:97-102 | The date is never reset: episode i carries the date from the last dated small among episodes 0 to i. |
| Handlers.EpisodeAiredOnCarriesOver | src/fzseries_api/handlers.py:83-102 | Per page, every episode's air date comes from the last dated small seen so far. |
| Hunter.NewIndex | src/fzseries_api/hunter.py:37-53 | Every construction requests the home page. It fails with LoadIndexError, carrying status code and reason, exactly when the response is not ok. |
| Hunter.OkUnlessClientOrServerError | src/fzseries_api/hunter.py:105 | `Response.ok`, as tested at load time and by `raise_for_status`: every client error (4xx) and server error (5xx) fails, and every other status passes. |
| Hunter.HtmlContentType | src/fzseries_api/hunter.py:106 | A missing Content-Type is not HTML. A header is HTML when "text/html" appears anywhere in it, parameters included, and never when it is shorter than "text/html". |
| Hunter.FirstMarkedLine | src/fzseries_api/hunter.py:107 | The match of the pattern is the first line mentioning the marker, and there is none exactly when no line mentions it. |
| Hunter.CheckExpiry | src/fzseries_api/hunter.py:106-115 | The response is returned unchanged exactly when it is not HTML or no line mentions the expiry notice. Otherwise the first such line's first anchor href, made absolute, is the SessionExpired URL. |
| Hunter.GetResource | src/fzseries_api/hunter.py:94-115 | The index is loaded exactly when the session cookie is missing, and its failure ends the fetch. An HTTP error is reported before any expiry check. Otherwise the expiry check decides. |
| Hunter.GetResourceSuccess | src/fzseries_api/hunter.py:104-115 | A successful fetch returns the given response. Its status was ok, and if it is HTML its body nowhere contains the expiry sentence. |
| Hunter.NoMarkedLine | src/fzseries_api/hunter.py:107 | A text no line of which mentions a marker free of line breaks does not mention it at all. |
| Hunter.MarkedLineAt | src/fzseries_api/hunter.py:107 | An occurrence of a marker free of line breaks lies inside some line of the text. |
| Hunter.LineStartsWith | src/fzseries_api/hunter.py:107 | A marker free of line breaks that starts the text is found in its first line. |
| Hunter.LineStartsWithPrefix | src/fzseries_api/hunter.py:107 | A marker free of line breaks that starts the text starts its first line. |
| Hunter.SearchUrlUnderSite | src/fzseries_api/hunter.py:72 | The search page is the site-relative "search.php". |
| Hunter.SearchParams | src/fzseries_api/hunter.py:73-79 | A search sends exactly five parameters with distinct keys, in this order: search = the query, beginsearch = "", insearch = "Search", vsearch = "", by = the category. |
| Hunter.SearchRequest | src/fzseries_api/hunter.py:71-80 | A search requests the site-relative "search.php" under the default timeout, with exactly the five search parameters. |
| Hunter.SearchByListed | src/fzseries_api/hunter.py:58 | A search runs by "series" or "episodes", and the default "series" is one of them. |
| Hunter.Search | src/fzseries_api/hunter.py:58-80 | A category other than "series" or "episodes" is rejected before any request. Otherwise the search page is fetched with exactly the search parameters, and its text is returned. |
| Filters.Url | src/fzseries_api/filters.py:60-111 | A navigator reads its link exactly as the earlier page gave it. Every other filter reads a page on the default site. |
| Filters.TargetLink | src/fzseries_api/filters.py:227-233 | The page names first, previous, next and last read the first, previous, next and last page links, in that order. |
| Filters.GenreOptionsListed | src/fzseries_api/filters.py:117-159 | There are 18 genres, and the default "Action" is one of them. |
| Filters.RangesListed | src/fzseries_api/filters.py:176-192 | There are 9 title ranges, and the default "AtoC" is one of them. |
| Filters.TargetsListed | src/fzseries_api/filters.py:207-212 | There are 4 navigation targets, and the default "next" is one of them. |
| Filters.SlashedPathUnderSite | src/fzseries_api/filters.py:63-105 | A path written with one leading slash lands under the default site. |
| Filters.FixedUrlUnderSite | src/fzseries_api/filters.py:60-111 | Every fixed listing page is on the default site. The cartoon page is the site's "cartoon.php". |
| Filters.GenreUrlUnderSite | src/fzseries_api/filters.py:170 | A genre page is the site's "genre.php?genre=" followed by the genre. |
| Filters.AlphabeticalUrlUnderSite | src/fzseries_api/filters.py:201 | A title-range page is the site's "tv.php?alpha=" followed by the range. |
| Filters.CartoonUrlAsIfSlashed | src/fzseries_api/filters.py:111 | The cartoon page, written without a leading slash, is the same as if it had one. |
| Filters.GenreFilter | src/fzseries_api/filters.py:114-170 | A genre filter is built exactly when the genre is listed; the failure names "Genre". Its page is the absolute "/genre.php?genre=" + genre. |
| Filters.AlphabeticalOrderFilter | src/fzseries_api/filters.py:173-201 | A range filter is built exactly when the range is listed; the failure names "Range". Its page is the absolute "/tv.php?alpha=" + range. |
| Filters.SearchNavigatorFilter | src/fzseries_api/filters.py:204-238 | Any target other than first, previous, next or last is rejected. A valid target fails with TargetPageURLNotFound exactly when its link is absent. Otherwise the page is exactly that link, and the results are kept. |
| Filters.NavigatorFollowsItsSlot | src/fzseries_api/filters.py:227-238 | Each target reads its own slot: first reads first_page, previous reads previous_page, next reads next_page, last reads last_page. |
| Filters.GetContents | src/fzseries_api/filters.py:43-49 | A filter fetches its own page with no query and the default timeout, and returns its text. |
| Filters.GetResults | src/fzseries_api/filters.py:240-250 | A navigator built from episode results reads the page with the episode handler. Every other filter uses the series handler. The kind of the result says which was used. |
| Filters.NavigationKeepsKind | src/fzseries_api/filters.py:240-250 | Navigating from series (episode) results yields series (episode) results. |

## Left out

- HTTP transport (`requests.Session`, headers, cookies, timeouts in flight): network I/O. Responses and the cookie flag are parameters. Only the requests issued are recorded.
- HTML parsing with BeautifulSoup (`souper`, `find`, `find_all`, `prettify`): a foreign library. The handlers receive the extracted strings and anchors as `Markup.Page`. The expiry check receives the parse of one line as a function.
- Missing structural elements. A series box without its `<span>`, link `<a>` or title `<small><b>`, and an episode box without its `<span>`, cannot be written as a `Markup.Page`. Those shapes are therefore not modelled. A missing `href`, `src`, `<small>` or `<b>` text is modelled.
- The `test.html` debug write in `search_results_handler`: a file-system write on every call. A failed write raises `OSError`, which the model does not represent.
- Pydantic validation in `models.py` (`HttpUrl` checks, parsing `aired_on` into a date): a foreign library. The records keep the extracted text.
- Logging, `__str__`, and rendering of the exception message text. Errors are kept as structured values.
- Python's Unicode `\w`: the tag pattern is modelled with ASCII word characters only.
- The host's path module. `get_absolute_url` calls `os.path.join`, which is `posixpath.join` only on a POSIX host. On Windows, `ntpath.join` also treats `\` and drive letters as roots. The model assumes a POSIX host.
- Python's `-O` flag. `assert_membership` and the checks in `SearchNavigatorFilter.__init__` are `assert` statements, which `python -O` removes. The model keeps them: a genre, range or search category that is not listed is rejected. Under `-O` such a filter or search would go ahead, and a bad navigation target would raise `KeyError` from the target lookup instead.
- Default arguments. `DefaultGenre`, `DefaultRange`, `DefaultTarget` and `Hunter.DefaultSearchBy` name Python's defaults, and each is proved to be one of its options. `DefaultIdentity` is the default identity "Value" of `assert_membership`, which a failed search reports because `search` passes none. The model's operations take every argument explicitly.
- The `Index.session_is_initialized` flag: it is never set, so the model always loads the index, which is what the code does.
- `console.py`, `main.py` and `setup.py` are not part of this model: they hold command-line plumbing, a module docstring and packaging metadata.
- Text.Strip: its own contract says only that the result is not longer. The full trimming property is stated by `Text.StripBounds` and `Text.StripTrims`, to keep callers' proofs small.
- Handlers.AiredOnToken: its own contract says only when a token exists. Its value is stated by `Handlers.AiredOnTokenWord`, for the same reason.
- Handlers.EpisodeItem and Handlers.EpisodeItems state success and the air date in their own contracts. What each item holds is stated by `Handlers.EpisodeItemMatches` and `Handlers.EpisodeItemsMatch`, for the same reason.

=== FILE: filters.dfy ===
/** The catalogue filters and page navigation: each filter names one listing
    page of the site, fetches it, and reads it with a results handler. */
module Filters {
  import opened Wrappers
  import opened Text
  import opened Utils
  import opened Models
  import opened Markup
  import opened Handlers
  import opened Hunter

  /** The genres a genre filter accepts, in the order the site lists them. */
  const GenreOptions: seq<string> :=
    ["Action", "Adventure", "Romance", "Animation", "Cartoon", "Crime", "Drama", "Comedy", "Mystery",
     "Thriller", "Fantasy", "Reality-TV", "Sci-Fi", "Family", "Documentary", "Horror", "History", "Music"]

  const DefaultGenre: string := "Action"

  /** The title ranges an alphabetical filter accepts, spelled as the client
      lists them: "DtoC" and "MtO" break the pattern of the others but are
      what is checked against and sent. */
  const AlphabeticalRanges: seq<string> :=
    ["AtoC", "DtoC", "GtoI", "JtoL", "MtO", "PtoR", "StoU", "VtoZ", "1to9"]

  const DefaultRange: string := "AtoC"

  /** The page names a navigator accepts. */
  const Targets: seq<string> := ["first", "previous", "next", "last"]

  const DefaultTarget: string := "next"

  lemma GenreOptionsListed()
    ensures |GenreOptions| == 18 && DefaultGenre in GenreOptions
  {
  }

  lemma RangesListed()
    ensures |AlphabeticalRanges| == 9 && DefaultRange in AlphabeticalRanges
  {
  }

  lemma TargetsListed()
    ensures |Targets| == 4 && DefaultTarget in Targets
  {
  }

  /** A filter: a fixed listing, a genre, a title range, or the page a
      navigator reached from earlier results. */
  datatype Filter =
    | IMDBTop250 | Popularity | AiredToday | Trending | FreshSeries
    | TopRatedMiniseries | NetflixOriginal | HBOOriginal | Cartoon
    | Genre(genre: string)
    | Alphabetical(range: string)
    | Navigator(target: string, link: string, results: AnyResults)

  /** The address of the page a filter reads. The fixed listings are written
      with a leading slash, except the cartoon listing; a navigator goes to
      the link exactly as the earlier page gave it. */
  function Url(f: Filter): (r: string)
    ensures f.Navigator? ==> r == f.link
    ensures !f.Navigator? ==> StartsWith(r, DefaultSiteUrl)
  {
    match f
    case IMDBTop250 => SlashedLiteralUnderSite("/imdbtop250.php"); AbsoluteUrl("/imdbtop250.php")
    case Popularity => SlashedLiteralUnderSite("/popular.php"); AbsoluteUrl("/popular.php")
    case AiredToday => SlashedLiteralUnderSite("/airedtoday.php"); AbsoluteUrl("/airedtoday.php")
    case Trending => SlashedLiteralUnderSite("/trending.php"); AbsoluteUrl("/trending.php")
    case FreshSeries => SlashedLiteralUnderSite("/freshseries.php"); AbsoluteUrl("/freshseries.php")
    case TopRatedMiniseries => SlashedLiteralUnderSite("/miniseries.php"); AbsoluteUrl("/miniseries.php")
    case NetflixOriginal => SlashedLiteralUnderSite("/netorig.php"); AbsoluteUrl("/netorig.php")
    case HBOOriginal => SlashedLiteralUnderSite("/hb.php"); AbsoluteUrl("/hb.php")
    case Cartoon =>
      assert "cartoon.php"[..1][0] == 'c';
      AbsoluteUrlOfRelative("cartoon.php");
      AbsoluteUrl("cartoon.php")
    case Genre(g) => SlashedLiteralUnderSite("/genre.php?genre=" + g); AbsoluteUrl("/genre.php?genre=" + g)
    case Alphabetical(r) => SlashedLiteralUnderSite("/tv.php?alpha=" + r); AbsoluteUrl("/tv.php?alpha=" + r)
    case Navigator(_, link, _) => link
  }

  /** A site path written with one leading slash lands under the site. */
  lemma SlashedPathUnderSite(path: string)
    requires |path| > 0 && path[0] != '/'
    ensures AbsoluteUrl("/" + path) == DefaultSiteUrl + path
    ensures StartsWith(AbsoluteUrl("/" + path), DefaultSiteUrl)
  {
    assert !StartsWith(path, "/") by {
      assert path[..1][0] == path[0];
    }
    AbsoluteUrlDropsOneSlash(path);
    AbsoluteUrlOfRelative(path);
  }

  /** A site path literal with exactly one leading slash lands under the site. */
  lemma SlashedLiteralUnderSite(slashed: string)
    requires |slashed| > 1 && slashed[0] == '/' && slashed[1] != '/'
    ensures AbsoluteUrl(slashed) == DefaultSiteUrl + slashed[1..]
    ensures StartsWith(AbsoluteUrl(slashed), DefaultSiteUrl)
  {
    assert slashed == "/" + slashed[1..];
    SlashedPathUnderSite(slashed[1..]);
  }

  /** The page a fixed listing reads is on the default site. */
  lemma FixedUrlUnderSite(f: Filter)
    requires !(f.Navigator? || f.Genre? || f.Alphabetical?)
    ensures StartsWith(Url(f), DefaultSiteUrl)
    ensures f == Cartoon ==> Url(f) == DefaultSiteUrl + "cartoon.php"
  {
    match f
    case IMDBTop250 => SlashedLiteralUnderSite("/imdbtop250.php");
    case Popularity => SlashedLiteralUnderSite("/popular.php");
    case AiredToday => SlashedLiteralUnderSite("/airedtoday.php");
    case Trending => SlashedLiteralUnderSite("/trending.php");
    case FreshSeries => SlashedLiteralUnderSite("/freshseries.php");
    case TopRatedMiniseries => SlashedLiteralUnderSite("/miniseries.php");
    case NetflixOriginal => SlashedLiteralUnderSite("/netorig.php");
    case HBOOriginal => SlashedLiteralUnderSite("/hb.php");
    case Cartoon =>
      CartoonUrlAsIfSlashed();
      SlashedPathUnderSite("cartoon.php");
  }

  /** A genre page is on the default site, whatever the genre text. */
  lemma GenreUrlUnderSite(genre: string)
    ensures Url(Genre(genre)) == DefaultSiteUrl + "genre.php?genre=" + genre
    ensures StartsWith(Url(Genre(genre)), DefaultSiteUrl)
  {
    assert "/genre.php?genre=" == "/" + "genre.php?genre=";
    assert "/genre.php?genre=" + genre == "/" + ("genre.php?genre=" + genre);
    SlashedPathUnderSite("genre.php?genre=" + genre);
  }

  /** A title-range page is on the default site, whatever the range text. */
  lemma AlphabeticalUrlUnderSite(range: string)
    ensures Url(Alphabetical(range)) == DefaultSiteUrl + "tv.php?alpha=" + range
    ensures StartsWith(Url(Alphabetical(range)), DefaultSiteUrl)
  {
    assert "/tv.php?alpha=" == "/" + "tv.php?alpha=";
    assert "/tv.php?alpha=" + range == "/" + ("tv.php?alpha=" + range);
    SlashedPathUnderSite("tv.php?alpha=" + range);
  }

  /** The cartoon listing, written without the leading slash, resolves to
      the same page as if it had one. */
  lemma CartoonUrlAsIfSlashed()
    ensures Url(Cartoon) == AbsoluteUrl("/cartoon.php")
  {
    assert !StartsWith("cartoon.php", "/") by {
      assert "cartoon.php"[..1][0] == 'c';
    }
    AbsoluteUrlDropsOneSlash("cartoon.php");
  }

  /** `GenreFilter(genre)`: accepted exactly when the genre is listed; the
      failure names "Genre" and the offending value. */
  function GenreFilter(genre: string): (r: Result<Filter, MembershipError<string>>)
    ensures r.Success? <==> genre in GenreOptions
    ensures r.Failure? ==> r.error == NotOneOf("Genre", genre, GenreOptions)
    ensures r.Success? ==> Url(r.value) == AbsoluteUrl("/genre.php?genre=" + genre)
  {
    match AssertMembership(genre, GenreOptions, "Genre")
    case Some(e) => Failure(e)
    case None => Success(Genre(genre))
  }

  /** `AlphabeticalOrderFilter(range)`: accepted exactly when the range is
      listed; the failure names "Range" and the offending value. */
  function AlphabeticalOrderFilter(range: string): (r: Result<Filter, MembershipError<string>>)
    ensures r.Success? <==> range in AlphabeticalRanges
    ensures r.Failure? ==> r.error == NotOneOf("Range", range, AlphabeticalRanges)
    ensures r.Success? ==> Url(r.value) == AbsoluteUrl("/tv.php?alpha=" + range)
  {
    match AssertMembership(range, AlphabeticalRanges, "Range")
    case Some(e) => Failure(e)
    case None => Success(Alphabetical(range))
  }

  /** Why a navigator cannot be built. */
  datatype NavigatorError =
    | InvalidTarget(target: string)          // not one of the four page names
    | TargetPageURLNotFound(target: string)  // the results have no such link

  /** The link a page name selects from a page's navigation links: the
      page names first, previous, next and last read the slots in that
      order. */
  function TargetLink(links: PageLinks, target: string): (r: Option<string>)
    requires target in Targets
    ensures forall k | 0 <= k < |Targets| :: target == Targets[k] ==>
              r == [links.firstPage, links.previousPage, links.nextPage, links.lastPage][k]
  {
    if target == "first" then links.firstPage
    else if target == "previous" then links.previousPage
    else if target == "next" then links.nextPage
    else links.lastPage
  }

  /** `SearchNavigatorFilter(results, target)`: the page name must be one of
      the four; the chosen link must be present; the navigator then goes to
      that link, as given, and remembers the results it came from. */
  function SearchNavigatorFilter(results: AnyResults, target: string): (r: Result<Filter, NavigatorError>)
    ensures target !in Targets ==> r == Failure(InvalidTarget(target))
    ensures target in Targets ==> (r.Success? <==> TargetLink(results.Links(), target).Some?)
    ensures target in Targets && r.Failure? ==> r.error == TargetPageURLNotFound(target)
    ensures r.Success? ==>
              && r.value.Navigator? && r.value.results == results && r.value.target == target
              && Some(Url(r.value)) == TargetLink(results.Links(), target)
  {
    if target !in Targets then Failure(InvalidTarget(target))
    else
      match TargetLink(results.Links(), target)
      case None => Failure(TargetPageURLNotFound(target))
      case Some(link) => Success(Navigator(target, link, results))
  }

  /** Each page name selects its own slot of the navigation links. */
  lemma NavigatorFollowsItsSlot(results: AnyResults)
    ensures var links := results.Links();
      && SearchNavigatorFilter(results, "first") ==
           (if links.firstPage.Some? then Success(Navigator("first", links.firstPage.value, results))
            else Failure(TargetPageURLNotFound("first")))
      && SearchNavigatorFilter(results, "previous") ==
           (if links.previousPage.Some? then Success(Navigator("previous", links.previousPage.value, results))
            else Failure(TargetPageURLNotFound("previous")))
      && SearchNavigatorFilter(results, "next") ==
           (if links.nextPage.Some? then Success(Navigator("next", links.nextPage.value, results))
            else Failure(TargetPageURLNotFound("next")))
      && SearchNavigatorFilter(results, "last") ==
           (if links.lastPage.Some? then Success(Navigator("last", links.lastPage.value, results))
            else Failure(TargetPageURLNotFound("last")))
  {
  }

  /** `get_contents`: the filter's page fetched with the default timeout and
      no query, and its text. */
  function GetContents(f: Filter, hasSessionCookie: bool, indexResp: Response, resp: Response,
                       anchorsOf: string -> seq<Anchor>): (r: Fetched<string>)
    ensures var got := GetResource(hasSessionCookie, Request(Url(f), [], RequestTimeout), indexResp, resp, anchorsOf);
      && r.issued == got.issued
      && (r.outcome.Success? <==> got.outcome.Success?)
      && (r.outcome.Failure? ==> r.outcome.error == got.outcome.error)
      && (r.outcome.Success? ==> r.outcome.value == resp.body)
  {
    var got := GetResource(hasSessionCookie, Request(Url(f), [], RequestTimeout), indexResp, resp, anchorsOf);
    match got.outcome
    case Failure(e) => Fetched(got.issued, Failure(e))
    case Success(page) => Fetched(got.issued, Success(page.body))
  }

  /** `get_results` on the fetched page (`page` is its parsed form): a
      navigator that came from episode results reads episodes; every other
      filter reads series. */
  function GetResults(f: Filter, page: Page): (r: Result<AnyResults, HandlerError>)
    ensures r.Success? ==> (r.value.Episodes? <==> f.Navigator? && f.results.Episodes?)
    ensures f.Navigator? && f.results.Episodes? ==>
              (r.Success? <==> EpisodeSearchResultsHandler(page).Success?)
              && (r.Success? ==> r.value.episodeResults == EpisodeSearchResultsHandler(page).value)
              && (r.Failure? ==> r.error == EpisodeSearchResultsHandler(page).error)
    ensures !(f.Navigator? && f.results.Episodes?) ==>
              (r.Success? <==> SearchResultsHandler(page).Success?)
              && (r.Success? ==> r.value.seriesResults == SearchResultsHandler(page).value)
              && (r.Failure? ==> r.error == SearchResultsHandler(page).error)
  {
    if f.Navigator? && f.results.Episodes? then
      match EpisodeSearchResultsHandler(page)
      case Failure(e) => Failure(e)
      case Success(v) => Success(Episodes(v))
    else
      match SearchResultsHandler(page)
      case Failure(e) => Failure(e)
      case Success(v) => Success(Series(v))
  }

  /** Navigating keeps the kind of results: a navigator built from series
      (episode) results yields series (episode) results again. */
  lemma NavigationKeepsKind(results: AnyResults, target: string, page: Page)
    requires SearchNavigatorFilter(results, target).Success?
    ensures var f := SearchNavigatorFilter(results, target).value;
      GetResults(f, page).Success? ==> (GetResults(f, page).value.Episodes? <==> results.Episodes?)
  {
  }
}

=== FILE: handlers.dfy ===
/** The two listing handlers: from the boxes found on a results page to the
    series or episode results, with the page-navigation links.

    HTML parsing is not part of this model: each handler receives the
    parsed page (`Markup.Page`). Markup that the original code would trip
    over (a missing `href`, `src`, `<small>` or `<b>`, an `<i>` date with no
    space, an episode date never assigned) yields `MalformedMarkup`. */
module Handlers {
  import opened Wrappers
  import opened Text
  import opened Utils
  import opened Models
  import opened Markup

  datatype HandlerError = ZeroSearchResults | MalformedMarkup

  /** Python's `s[n:]`: empty when `n` is past the end. */
  function SliceFrom<T>(s: seq<T>, n: nat): (r: seq<T>)
    ensures s[..if n <= |s| then n else |s|] + r == s
    ensures |r| == if n <= |s| then |s| - n else 0
  {
    if n <= |s| then s[n..] else []
  }

  /** A handler loop: `f` applied to each element in order, stopping at the
      first element it fails on. */
  function Collect<A, B>(xs: seq<A>, f: A -> Result<B, HandlerError>): (r: Result<seq<B>, HandlerError>)
    ensures r.Success? <==> forall k | 0 <= k < |xs| :: f(xs[k]).Success?
    ensures r.Success? ==> (|r.value| == |xs| && forall k | 0 <= k < |xs| :: r.value[k] == f(xs[k]).value)
    ensures r.Failure? ==> exists k | 0 <= k < |xs| :: f(xs[k]) == Failure(r.error)
  {
    if |xs| == 0 then Success([])
    else
      assert forall k | 1 <= k < |xs| :: xs[k] == xs[1..][k - 1];
      match f(xs[0])
      case Failure(e) => Failure(e)
      case Success(y) =>
        match Collect(xs[1..], f)
        case Failure(e) => Failure(e)
        case Success(ys) => Success([y] + ys)
  }

  // ---------------------------------------------------------------------
  // Navigation links

  /** One iteration of the navigator loop: the anchor's `href` (possibly
      absent) goes to the slot named by its exact text. This is the
      last-anchor rule on the one-anchor list `[a]`. */
  function Classify(links: PageLinks, a: Anchor): (r: PageLinks)
    ensures r == PageLinks(Slot([a], "First", links.firstPage), Slot([a], "Prev", links.previousPage),
                           Slot([a], "Next", links.nextPage), Slot([a], "Last", links.lastPage))
  {
    assert [a][1..] == [];
    if a.text == "First" then links.(firstPage := a.href)
    else if a.text == "Prev" then links.(previousPage := a.href)
    else if a.text == "Next" then links.(nextPage := a.href)
    else if a.text == "Last" then links.(lastPage := a.href)
    else links
  }

  /** The navigator loop over the anchors, in document order. It fills each
      slot from the last anchor with that slot's caption and leaves a slot
      with no such anchor as it was. */
  function ScanAnchors(links: PageLinks, anchors: seq<Anchor>): (r: PageLinks)
    ensures r == PageLinks(
      Slot(anchors, "First", links.firstPage),
      Slot(anchors, "Prev", links.previousPage),
      Slot(anchors, "Next", links.nextPage),
      Slot(anchors, "Last", links.lastPage))
    decreases |anchors|
  {
    if |anchors| == 0 then links
    else
      SlotCons(anchors, "First", links.firstPage);
      SlotCons(anchors, "Prev", links.previousPage);
      SlotCons(anchors, "Next", links.nextPage);
      SlotCons(anchors, "Last", links.lastPage);
      ScanAnchors(Classify(links, anchors[0]), anchors[1..])
  }

  /** The last anchor whose text is exactly `caption`, if any. */
  function LastLabelled(anchors: seq<Anchor>, caption: string): (r: Option<Anchor>)
    ensures r.Some? ==> r.value in anchors && r.value.text == caption
    ensures r.None? <==> forall k | 0 <= k < |anchors| :: anchors[k].text != caption
    ensures r.Some? ==> exists k | 0 <= k < |anchors| ::
              anchors[k] == r.value && forall j | k < j < |anchors| :: anchors[j].text != caption
  {
    if |anchors| == 0 then None
    else
      var tail := anchors[1..];
      var later := LastLabelled(tail, caption);
      assert forall k | 1 <= k < |anchors| :: anchors[k] == tail[k - 1];
      if later.Some? then
        assert exists k | 0 <= k < |anchors| ::
                 anchors[k] == later.value && forall j | k < j < |anchors| :: anchors[j].text != caption by {
          var k :| 0 <= k < |tail| && tail[k] == later.value
                   && forall j | k < j < |tail| :: tail[j].text != caption;
          assert anchors[k + 1] == later.value;
        }
        later
      else if anchors[0].text == caption then Some(anchors[0])
      else None
  }

  /** The link a navigator yields for `caption`: the `href` of the last anchor
      so captioned, or `fallback` when there is none. */
  function Slot(anchors: seq<Anchor>, caption: string, fallback: Option<string>): Option<string> {
    match LastLabelled(anchors, caption)
    case Some(a) => a.href
    case None => fallback
  }

  /** A later anchor with the same caption overrides every earlier one. */
  lemma {:induction false} LastLabelledAppend(anchors: seq<Anchor>, a: Anchor, caption: string)
    ensures LastLabelled(anchors + [a], caption) == if a.text == caption then Some(a) else LastLabelled(anchors, caption)
  {
    if |anchors| > 0 {
      assert (anchors + [a])[1..] == anchors[1..] + [a];
      LastLabelledAppend(anchors[1..], a, caption);
    }
  }

  /** The first anchor only matters when no later one has the caption. */
  lemma SlotCons(anchors: seq<Anchor>, caption: string, fallback: Option<string>)
    requires |anchors| > 0
    ensures Slot(anchors, caption, fallback) ==
            Slot(anchors[1..], caption, if anchors[0].text == caption then anchors[0].href else fallback)
  {
  }

  /** The page links of a results page: all absent unless there are more than
      three navigation boxes, and then taken from the last box only. */
  function NavigatorLinks(navigators: seq<NavBlock>): (r: PageLinks)
    ensures |navigators| <= 3 ==> r == NoLinks
    ensures |navigators| > 3 ==>
      var last := navigators[|navigators| - 1].anchors;
      r == PageLinks(Slot(last, "First", None), Slot(last, "Prev", None),
                     Slot(last, "Next", None), Slot(last, "Last", None))
  {
    if |navigators| > 3 then
      var last := navigators[|navigators| - 1].anchors;
      ScanAnchors(NoLinks, last)
    else
      NoLinks
  }

  // ---------------------------------------------------------------------
  // Series results

  /** A series box carries every attribute the handler reads. */
  predicate SeriesBlockComplete(b: SeriesBlock) {
    b.href.Some? && b.coverSrc.Some? && b.lastSmallText.Some?
  }

  /** `item` is what the handler makes of box `b`: stripped title and
      synopsis, link and cover made absolute. */
  predicate SeriesItemOf(item: SeriesInSearch, b: SeriesBlock) {
    && SeriesBlockComplete(b)
    && item.title == Strip(b.titleText)
    && item.url == AbsoluteUrl(b.href.value)
    && item.coverPhoto == AbsoluteUrl(b.coverSrc.value)
    && item.about == Strip(b.lastSmallText.value)
  }

  /** One iteration of the series loop. */
  function SeriesItem(b: SeriesBlock): (r: Result<SeriesInSearch, HandlerError>)
    ensures r.Success? <==> SeriesBlockComplete(b)
    ensures r.Failure? ==> r.error == MalformedMarkup
    ensures r.Success? ==> SeriesItemOf(r.value, b)
  {
    if !SeriesBlockComplete(b) then Failure(MalformedMarkup)
    else Success(SeriesInSearch(Strip(b.titleText), AbsoluteUrl(b.href.value),
                                AbsoluteUrl(b.coverSrc.value), Strip(b.lastSmallText.value)))
  }

  /** `search_results_handler`: skip the first two series boxes; no box left
      means zero results; otherwise one item per remaining box, and page links
      from the navigation boxes inside the last series box. */
  function SearchResultsHandler(page: Page): (r: Result<SearchResults, HandlerError>)
    ensures r == Failure(ZeroSearchResults) <==> |page.seriesBlocks| <= 2
    ensures r.Success? <==> (|page.seriesBlocks| > 2
                             && forall i | 2 <= i < |page.seriesBlocks| :: SeriesBlockComplete(page.seriesBlocks[i]))
    ensures r.Success? ==>
      && |r.value.series| == |page.seriesBlocks| - 2
      && (forall i | 0 <= i < |r.value.series| :: SeriesItemOf(r.value.series[i], page.seriesBlocks[i + 2]))
      && r.value.links == NavigatorLinks(page.seriesBlocks[|page.seriesBlocks| - 1].navigators)
  {
    var found := SliceFrom(page.seriesBlocks, 2);
    if |found| == 0 then Failure(ZeroSearchResults)
    else
      var collected := Collect(found, SeriesItem);
      if collected.Failure? then
        var k :| 0 <= k < |found| && SeriesItem(found[k]) == Failure(collected.error);
        assert !SeriesBlockComplete(page.seriesBlocks[k + 2]);
        Failure(collected.error)
      else
        var items := collected.value;
        assert forall i | 2 <= i < |page.seriesBlocks| :: SeriesBlockComplete(page.seriesBlocks[i]) by {
          forall i | 2 <= i < |page.seriesBlocks|
            ensures SeriesBlockComplete(page.seriesBlocks[i])
          {
            assert found[i - 2] == page.seriesBlocks[i];
            assert SeriesItem(found[i - 2]).Success?;
          }
        }
        assert forall i | 0 <= i < |items| :: SeriesItemOf(items[i], page.seriesBlocks[i + 2]) by {
          forall i | 0 <= i < |items|
            ensures SeriesItemOf(items[i], page.seriesBlocks[i + 2])
          {
            assert found[i] == page.seriesBlocks[i + 2];
            assert items[i] == SeriesItem(found[i]).value;
          }
        }
        Success(SearchResults(items, NavigatorLinks(found[|found| - 1].navigators)))
  }

  // ---------------------------------------------------------------------
  // Episode files

  /** `file.text.strip()[1:][-1:]`: the last character of the stripped anchor
      text, unless that text has at most one character. */
  function Identity(text: string): (r: string)
    ensures |Strip(text)| <= 1 ==> r == ""
    ensures |Strip(text)| >= 2 ==> r == [Strip(text)[|Strip(text)| - 1]]
  {
    var t := Strip(text);
    var tail := SliceFrom(t, 1);
    if |tail| >= 1 then tail[|tail| - 1..] else tail
  }

  /** One iteration of the file loop of an episode. */
  function EpisodeFileOf(a: Anchor): (r: Result<EpisodeFile, HandlerError>)
    ensures r.Success? <==> a.href.Some?
    ensures r.Failure? ==> r.error == MalformedMarkup
    ensures r.Success? ==> r.value == EpisodeFile(AbsoluteUrl(a.href.value), Identity(a.text))
  {
    if a.href.None? then Failure(MalformedMarkup)
    else Success(EpisodeFile(AbsoluteUrl(a.href.value), Identity(a.text)))
  }

  // ---------------------------------------------------------------------
  // Air date

  /** `text.split(" ")[1].replace(")", "")`: the second space-separated word
      with closing parentheses removed; absent when there is no space (the
      original raises `IndexError`). */
  function AiredOnToken(italic: string): (r: Option<string>)
    ensures r.Some? <==> ' ' in italic
  {
    var words := Split(italic, ' ');
    SplitHasSecond(italic, ' ');
    if |words| >= 2 then Some(RemoveAll(words[1], ')')) else None
  }

  /** The date token is the word right after the first space of the `<i>`
      text, with its closing parentheses removed. */
  lemma AiredOnTokenWord(italic: string)
    requires ' ' in italic
    ensures var r := AiredOnToken(italic).value;
      && ')' !in r && ' ' !in r
      && r == RemoveAll(Split(italic[FirstIndex(italic, ' ') + 1..], ' ')[0], ')')
  {
    SplitAtFirst(italic, ' ');
  }

  /** Every `<i>` among the smalls holds a space-separated date. */
  predicate ItalicsWellFormed(smalls: seq<Small>) {
    forall k | 0 <= k < |smalls| :: smalls[k].italic.Some? ==> ' ' in smalls[k].italic.value
  }

  /** The `<i>` text of the last small that has one: nothing exactly when no
      small has an `<i>`, and otherwise the `<i>` of a small after which none
      has one. */
  function LastItalic(smalls: seq<Small>): (r: Option<string>)
    ensures r.None? <==> forall k | 0 <= k < |smalls| :: smalls[k].italic.None?
    ensures r.Some? ==> exists k | 0 <= k < |smalls| ::
              smalls[k].italic == r && forall j | k < j < |smalls| :: smalls[j].italic.None?
  {
    if |smalls| == 0 then None
    else
      var tail := smalls[1..];
      var later := LastItalic(tail);
      assert forall k | 1 <= k < |smalls| :: smalls[k] == tail[k - 1];
      if later.Some? then
        assert exists k | 0 <= k < |smalls| ::
                 smalls[k].italic == later && forall j | k < j < |smalls| :: smalls[j].italic.None? by {
          var k :| 0 <= k < |tail| && tail[k].italic == later
                   && forall j | k < j < |tail| :: tail[j].italic.None?;
          assert smalls[k + 1].italic == later;
        }
        later
      else
        smalls[0].italic
  }

  /** The date read from the last `<i>` text seen, or the carried date when
      none was seen. */
  function DateOf(lastItalic: Option<string>, aired: Option<string>): Option<string> {
    match lastItalic
    case Some(t) => AiredOnToken(t)
    case None => aired
  }

  /** The air-date loop over one episode's smalls, starting from the value
      left by the previous episode: the last small with an `<i>` decides, and
      the carried value survives when there is none. */
  function ScanAiredOn(aired: Option<string>, smalls: seq<Small>): (r: Result<Option<string>, HandlerError>)
    ensures r.Success? <==> ItalicsWellFormed(smalls)
    ensures r.Failure? ==> r.error == MalformedMarkup
    ensures r.Success? ==> r.value == DateOf(LastItalic(smalls), aired)
    decreases |smalls|
  {
    if |smalls| == 0 then Success(aired)
    else
      assert forall k | 1 <= k < |smalls| :: smalls[k] == smalls[1..][k - 1];
      match smalls[0].italic
      case None => ScanAiredOn(aired, smalls[1..])
      case Some(t) =>
        match AiredOnToken(t)
        case None => Failure(MalformedMarkup)
        case Some(d) => ScanAiredOn(Some(d), smalls[1..])
  }

  // ---------------------------------------------------------------------
  // Synopsis and credits

  datatype Metadata = Metadata(about: Option<string>, stars: Option<string>,
                               director: Option<string>, writer: Option<string>)

  const NoMetadata: Metadata := Metadata(None, None, None, None)

  /** `text.split(":")[1].strip()` of a stripped line: a credit line gives
      a value exactly when its stripped text has a colon, and the value is
      the stripped text between the first and the second colon. */
  function FieldValue(line: string): (r: Option<string>)
    ensures r.Some? <==> ':' in Strip(line)
    ensures r.Some? ==>
      var t := Strip(line);
      r.value == Strip(Split(t[FirstIndex(t, ':') + 1..], ':')[0])
  {
    var t := Strip(line);
    var parts := Split(t, ':');
    SplitHasSecond(t, ':');
    if |parts| >= 2 then
      SplitAtFirst(t, ':');
      Some(Strip(parts[1]))
    else None
  }

  /** One iteration of the metadata loop at position `index`: it writes
      the synopsis at position 0, and at positions 1, 2, 3 the stars,
      director or writer when the line has a colon; every other field is
      kept. */
  function MetadataStep(m: Metadata, index: nat, entry: string): (r: Metadata)
    ensures r == Metadata(
      if index == 0 then Some(Strip(entry)) else m.about,
      if index == 1 && FieldValue(entry).Some? then FieldValue(entry) else m.stars,
      if index == 2 && FieldValue(entry).Some? then FieldValue(entry) else m.director,
      if index == 3 && FieldValue(entry).Some? then FieldValue(entry) else m.writer)
  {
    if index == 0 then m.(about := Some(Strip(entry)))
    else
      match FieldValue(entry)
      case None => m
      case Some(v) =>
        if index == 1 then m.(stars := Some(v))
        else if index == 2 then m.(director := Some(v))
        else if index == 3 then m.(writer := Some(v))
        else m
  }

  /** The metadata loop over `lines`, the first of which sits at `index`.
      Each position writes only its own field, so the loop amounts to
      reading each field from its own line. */
  function ScanMetadata(m: Metadata, lines: seq<string>, index: nat): (r: Metadata)
    ensures r == Metadata(
      if index == 0 && |lines| >= 1 then Some(Strip(lines[0])) else m.about,
      PickField(m.stars, lines, index, 1),
      PickField(m.director, lines, index, 2),
      PickField(m.writer, lines, index, 3))
    decreases |lines|
  {
    if |lines| == 0 then m
    else
      PickFieldStep(m.stars, lines, index, 1);
      PickFieldStep(m.director, lines, index, 2);
      PickFieldStep(m.writer, lines, index, 3);
      ScanMetadata(MetadataStep(m, index, lines[0]), lines[1..], index + 1)
  }

  /** The credit at position `k` of the lines, if that line has a colon. */
  function FieldAt(lines: seq<string>, k: nat): Option<string> {
    if k < |lines| then FieldValue(lines[k]) else None
  }

  /** What position `k` contributes to a loop whose first line sits at
      `start`, or `current` when it contributes nothing. */
  function PickField(current: Option<string>, lines: seq<string>, start: nat, k: nat): Option<string> {
    if start <= k < start + |lines| && FieldValue(lines[k - start]).Some?
    then FieldValue(lines[k - start]) else current
  }

  /** Peeling the first line off a loop that starts at `start`. */
  lemma PickFieldStep(current: Option<string>, lines: seq<string>, start: nat, k: nat)
    requires |lines| > 0
    ensures PickField(current, lines, start, k) ==
      PickField(if k == start && FieldValue(lines[0]).Some? then FieldValue(lines[0]) else current,
                lines[1..], start + 1, k)
  {
    if start + 1 <= k < start + |lines| {
      assert lines[1..][k - (start + 1)] == lines[k - start];
    }
  }

  /** The metadata rule: nothing is filled when there are exactly four lines;
      otherwise line 0 is the synopsis and lines 1, 2, 3 give stars,
      director and writer, each only when the line has a colon. */
  function ExtractMetadata(lines: seq<string>): (r: Metadata)
    ensures |lines| == 4 ==> r == NoMetadata
    ensures |lines| != 4 ==> r == Metadata(
      if |lines| >= 1 then Some(Strip(lines[0])) else None,
      FieldAt(lines, 1), FieldAt(lines, 2), FieldAt(lines, 3))
  {
    if |lines| == 4 then NoMetadata else ScanMetadata(NoMetadata, lines, 0)
  }

  // ---------------------------------------------------------------------
  // Episode results

  /** An episode box carries every element and attribute the handler reads. */
  predicate EpisodeBlockComplete(b: EpisodeBlock) {
    && b.coverSrc.Some?
    && |b.smalls| >= 1 && b.smalls[0].bold.Some?
    && (forall k | 0 <= k < |b.files| :: b.files[k].href.Some?)
    && ItalicsWellFormed(b.smalls)
  }

  /** The metadata of an episode box, read from its last small. */
  function BlockMetadata(b: EpisodeBlock): Metadata
    requires |b.smalls| >= 1
  {
    ExtractMetadata(MetadataLines(b.smalls[|b.smalls| - 1].markup))
  }

  /** `item` is what the handler makes of box `b`, its air date aside: the
      metadata comes from this box alone (it is reset for every episode). */
  predicate EpisodeItemOf(item: EpisodeInSearch, b: EpisodeBlock) {
    && EpisodeBlockComplete(b)
    && item.title == Strip(b.smalls[0].bold.value)
    && item.coverPhoto == AbsoluteUrl(b.coverSrc.value)
    && |item.files| == |b.files|
    && (forall k | 0 <= k < |b.files| ::
          item.files[k] == EpisodeFile(AbsoluteUrl(b.files[k].href.value), Identity(b.files[k].text)))
    && var m := BlockMetadata(b);
       item.about == m.about && item.stars == m.stars
       && item.director == m.director && item.writer == m.writer
  }

  /** One iteration of the episode loop; also returns the air date carried
      on to the next episode. */
  function EpisodeItem(aired: Option<string>, b: EpisodeBlock): (r: Result<(EpisodeInSearch, string), HandlerError>)
    ensures r.Success? <==> EpisodeBlockComplete(b) && (aired.Some? || LastItalic(b.smalls).Some?)
    ensures r.Failure? ==> r.error == MalformedMarkup
    ensures r.Success? ==> r.value.0.airedOn == r.value.1
    ensures r.Success? ==> Some(r.value.1) == DateOf(LastItalic(b.smalls), aired)
  {
    if !(b.coverSrc.Some? && |b.smalls| >= 1 && b.smalls[0].bold.Some?) then Failure(MalformedMarkup)
    else
      match Collect(b.files, EpisodeFileOf)
      case Failure(e) => Failure(e)
      case Success(files) =>
        match ScanAiredOn(aired, b.smalls)
        case Failure(e) => Failure(e)
        case Success(None) => Failure(MalformedMarkup)
        case Success(Some(airedNow)) =>
          var m := BlockMetadata(b);
          var item := EpisodeInSearch(Strip(b.smalls[0].bold.value), files, AbsoluteUrl(b.coverSrc.value),
                                      airedNow, m.about, m.stars, m.director, m.writer);
          Success((item, airedNow))
  }

  /** The item made from a box is what the handler makes of that box. */
  lemma EpisodeItemMatches(aired: Option<string>, b: EpisodeBlock)
    ensures EpisodeItem(aired, b).Success? ==> EpisodeItemOf(EpisodeItem(aired, b).value.0, b)
  {
  }

  /** The same, as a one-element run of related items and boxes. */
  lemma EpisodeItemMatchesOne(aired: Option<string>, b: EpisodeBlock)
    ensures EpisodeItem(aired, b).Success? ==> Pairwise(EpisodeItemOf, [EpisodeItem(aired, b).value.0], [b])
  {
    EpisodeItemMatches(aired, b);
  }

  /** Every box in `blocks` is complete. */
  predicate AllEpisodeBlocksComplete(blocks: seq<EpisodeBlock>) {
    forall i | 0 <= i < |blocks| :: EpisodeBlockComplete(blocks[i])
  }

  /** `rel` holds between the elements of `xs` and `ys` at every position. */
  predicate Pairwise<A, B>(rel: (A, B) -> bool, xs: seq<A>, ys: seq<B>) {
    |xs| == |ys| && forall i {:trigger rel(xs[i], ys[i])} | 0 <= i < |xs| :: rel(xs[i], ys[i])
  }

  /** Related sequences placed end to end stay related. */
  lemma PairwiseConcat<A, B>(rel: (A, B) -> bool, xs: seq<A>, xs': seq<A>, ys: seq<B>, ys': seq<B>)
    requires Pairwise(rel, xs, ys) && Pairwise(rel, xs', ys')
    ensures Pairwise(rel, xs + xs', ys + ys')
  {
    forall i | 0 <= i < |xs| + |xs'|
      ensures rel((xs + xs')[i], (ys + ys')[i])
    {
      if i >= |xs| {
        assert (xs + xs')[i] == xs'[i - |xs|] && (ys + ys')[i] == ys'[i - |ys|];
      }
    }
  }

  /** A related first pair in front of related rests relates the whole sequences. */
  lemma PairwiseCons<A, B>(rel: (A, B) -> bool, xs: seq<A>, ys: seq<B>, x: A, rest: seq<A>)
    requires |ys| > 0 && xs == [x] + rest
    requires Pairwise(rel, [x], [ys[0]]) && Pairwise(rel, rest, ys[1..])
    ensures Pairwise(rel, xs, ys)
  {
    PairwiseConcat(rel, [x], rest, [ys[0]], ys[1..]);
    assert [ys[0]] + ys[1..] == ys;
  }

  /** A non-empty run of boxes is complete when its first box and the rest are. */
  lemma AllCompleteCons(blocks: seq<EpisodeBlock>)
    requires |blocks| > 0
    ensures AllEpisodeBlocksComplete(blocks) <==>
              EpisodeBlockComplete(blocks[0]) && AllEpisodeBlocksComplete(blocks[1..])
  {
    assert forall i | 1 <= i < |blocks| :: blocks[i] == blocks[1..][i - 1];
  }

  /** The episode loop, starting from the air date `aired` (absent before the
      first episode): one item per box, in order. */
  function EpisodeItems(aired: Option<string>, blocks: seq<EpisodeBlock>): (r: Result<seq<EpisodeInSearch>, HandlerError>)
    ensures r.Success? <==> (AllEpisodeBlocksComplete(blocks)
                             && (|blocks| == 0 || aired.Some? || LastItalic(blocks[0].smalls).Some?))
    ensures r.Failure? ==> r.error == MalformedMarkup
    ensures r.Success? ==> |r.value| == |blocks|
    decreases |blocks|
  {
    if |blocks| == 0 then Success([])
    else
      var tail := blocks[1..];
      AllCompleteCons(blocks);
      var first := EpisodeItem(aired, blocks[0]);
      if first.Failure? then Failure(first.error)
      else
        var step := first.value;
        var rest := EpisodeItems(Some(step.1), tail);
        if rest.Failure? then Failure(rest.error)
        else
          Success([step.0] + rest.value)
  }

  /** The episode loop makes item `i` from box `i`. */
  lemma {:induction false} EpisodeItemsMatch(aired: Option<string>, blocks: seq<EpisodeBlock>)
    ensures EpisodeItems(aired, blocks).Success? ==> Pairwise(EpisodeItemOf, EpisodeItems(aired, blocks).value, blocks)
    decreases |blocks|
  {
    if |blocks| > 0 && EpisodeItems(aired, blocks).Success? {
      var first, next := EpisodeItemsCons(aired, blocks);
      EpisodeItemMatchesOne(aired, blocks[0]);
      EpisodeItemsMatch(Some(next), blocks[1..]);
      PairwiseCons(EpisodeItemOf, EpisodeItems(aired, blocks).value, blocks, first, EpisodeItems(Some(next), blocks[1..]).value);
    }
  }

  /** `episode_search_results_handler`: no episode box means zero results;
      otherwise one episode per box, in order, and page links from the
      page's navigation boxes. */
  function EpisodeSearchResultsHandler(page: Page): (r: Result<EpisodeSearchResults, HandlerError>)
    ensures r == Failure(ZeroSearchResults) <==> |page.episodeBlocks| == 0
    ensures r.Success? <==> (|page.episodeBlocks| > 0
                             && AllEpisodeBlocksComplete(page.episodeBlocks)
                             && LastItalic(page.episodeBlocks[0].smalls).Some?)
    ensures r.Success? ==>
      && |r.value.episodes| == |page.episodeBlocks|
      && (forall i | 0 <= i < |page.episodeBlocks| :: EpisodeItemOf(r.value.episodes[i], page.episodeBlocks[i]))
      && r.value.links == NavigatorLinks(page.navigators)
  {
    if |page.episodeBlocks| == 0 then Failure(ZeroSearchResults)
    else
      EpisodeItemsMatch(None, page.episodeBlocks);
      match EpisodeItems(None, page.episodeBlocks)
      case Failure(e) => Failure(e)
      case Success(items) => Success(EpisodeSearchResults(items, NavigatorLinks(page.navigators)))
  }

  /** The `<i>` text of the last small having one across all of `blocks`. */
  function LastItalicIn(blocks: seq<EpisodeBlock>): Option<string> {
    if |blocks| == 0 then None
    else
      var later := LastItalicIn(blocks[1..]);
      if later.Some? then later else LastItalic(blocks[0].smalls)
  }

  /** The air date in force after `blocks`, given the one before them. */
  function AiredAfter(aired: Option<string>, blocks: seq<EpisodeBlock>): Option<string> {
    DateOf(LastItalicIn(blocks), aired)
  }

  /** Reading the boxes one at a time: the date after `[b] + rest` is the
      date after `rest`, starting from the date after `b`. */
  lemma {:induction false} AiredAfterCons(aired: Option<string>, b: EpisodeBlock, rest: seq<EpisodeBlock>)
    ensures AiredAfter(aired, [b] + rest) == AiredAfter(AiredAfter(aired, [b]), rest)
  {
    assert ([b] + rest)[1..] == rest;
    assert [b][1..] == [];
    assert LastItalicIn([b]) == LastItalic(b.smalls);
    var later := LastItalicIn(rest);
    assert LastItalicIn([b] + rest) == if later.Some? then later else LastItalic(b.smalls);
  }

  /** The first step of the episode loop: the first item carries the date
      after the first box, and the loop goes on from that date. */
  lemma EpisodeItemsCons(aired: Option<string>, blocks: seq<EpisodeBlock>)
    returns (first: EpisodeInSearch, next: string)
    requires |blocks| > 0 && EpisodeItems(aired, blocks).Success?
    ensures EpisodeItems(Some(next), blocks[1..]).Success?
    ensures EpisodeItems(aired, blocks).value == [first] + EpisodeItems(Some(next), blocks[1..]).value
    ensures Some(first.airedOn) == Some(next) == DateOf(LastItalic(blocks[0].smalls), aired)
    ensures first == EpisodeItem(aired, blocks[0]).value.0
  {
    var step := EpisodeItem(aired, blocks[0]).value;
    first, next := step.0, step.1;
  }

  /** The date after one box is the date its own smalls leave. */
  lemma AiredAfterOne(aired: Option<string>, b: EpisodeBlock)
    ensures AiredAfter(aired, [b]) == DateOf(LastItalic(b.smalls), aired)
  {
    assert [b][1..] == [];
    assert LastItalicIn([b][1..]) == None;
    assert LastItalicIn([b]) == LastItalic(b.smalls);
  }

  /** Prepending one box and its item keeps "each item carries the date
      after its prefix" true. */
  lemma {:induction false} AiredOnPrepend(aired: Option<string>, blocks: seq<EpisodeBlock>,
                                          first: EpisodeInSearch, rest: seq<EpisodeInSearch>)
    requires |blocks| > 0 && |rest| == |blocks| - 1
    requires Some(first.airedOn) == AiredAfter(aired, [blocks[0]])
    requires forall j | 0 <= j < |blocks| - 1 ::
      Some(rest[j].airedOn) == AiredAfter(Some(first.airedOn), blocks[1..][..j + 1])
    ensures forall i | 0 <= i < |blocks| ::
      Some(([first] + rest)[i].airedOn) == AiredAfter(aired, blocks[..i + 1])
  {
    var items, b, tail := [first] + rest, blocks[0], blocks[1..];
    forall i | 0 <= i < |blocks|
      ensures Some(items[i].airedOn) == AiredAfter(aired, blocks[..i + 1])
    {
      assert blocks[..i + 1] == [b] + tail[..i];
      AiredAfterCons(aired, b, tail[..i]);
      if i > 0 {
        assert items[i] == rest[i - 1];
      } else {
        assert tail[..i] == [];
        assert LastItalicIn(tail[..i]) == None;
      }
    }
  }

  /** The air date is never reset between episodes: episode `i` carries the
      date of the last dated small among episodes `0..i`. */
  lemma {:induction false} EpisodeItemsAiredOn(aired: Option<string>, blocks: seq<EpisodeBlock>)
    ensures EpisodeItems(aired, blocks).Success? ==>
      forall i | 0 <= i < |blocks| ::
        Some(EpisodeItems(aired, blocks).value[i].airedOn) == AiredAfter(aired, blocks[..i + 1])
    decreases |blocks|
  {
    if |blocks| > 0 && EpisodeItems(aired, blocks).Success? {
      var first, next := EpisodeItemsCons(aired, blocks);
      AiredAfterOne(aired, blocks[0]);
      EpisodeItemsAiredOn(Some(next), blocks[1..]);
      AiredOnPrepend(aired, blocks, first, EpisodeItems(Some(next), blocks[1..]).value);
    }
  }

  /** Per page: every episode's date comes from the last dated small seen
      so far on the page. */
  lemma EpisodeAiredOnCarriesOver(page: Page)
    ensures EpisodeSearchResultsHandler(page).Success? ==>
      forall i | 0 <= i < |page.episodeBlocks| ::
        Some(EpisodeSearchResultsHandler(page).value.episodes[i].airedOn) == AiredAfter(None, page.episodeBlocks[..i + 1])
  {
    EpisodeItemsAiredOn(None, page.episodeBlocks);
  }
}

=== FILE: hunter.dfy ===
/** The decisions taken around every page fetch: loading the index page,
    bootstrapping the session, rejecting HTTP errors, recognising the
    "download keys have expired" notice, and the search request.

    The network is not modelled. A fetch is described by the requests it
    issues and by the responses those requests are given, which arrive as
    parameters; cookies are reduced to whether the session cookie is set. */
module Hunter {
  import opened Wrappers
  import opened Text
  import opened Utils
  import opened Markup

  /** Seconds every request waits before giving up. */
  const RequestTimeout: nat := 20

  /** What the session sends: a URL, its query parameters and a timeout. */
  datatype Request = Request(url: string, params: seq<(string, string)>, timeout: nat)

  /** What comes back: status line, the `Content-Type` header if sent, and
      the decoded body. */
  datatype Response = Response(status: int, reason: string, contentType: Option<string>, body: string)

  /** `Response.ok`: neither a client (4xx) nor a server (5xx) error. */
  predicate IsOk(status: int) {
    !(400 <= status < 600)
  }

  /** A status is ok exactly when `raise_for_status` would not raise: every
      client error and every server error fails, and every status outside
      those two ranges, informational and redirects included, passes. */
  lemma OkUnlessClientOrServerError(status: int)
    ensures 400 <= status < 500 ==> !IsOk(status)
    ensures 500 <= status < 600 ==> !IsOk(status)
    ensures (status < 400 || 600 <= status) ==> IsOk(status)
  {
  }

  /** Why a fetch fails. */
  datatype FetchError =
    | LoadIndexError(status: int, reason: string)   // the index page did not load
    | HttpError(status: int, reason: string)        // `raise_for_status` on the resource
    | SessionExpired(url: string)                   // the page says the keys have expired
    | MalformedExpiryNotice                         // the notice has no link to follow

  /** The requests issued, in order, and the outcome. */
  datatype Fetched<T> = Fetched(issued: seq<Request>, outcome: Result<T, FetchError>)

  // ---------------------------------------------------------------------
  // The index page

  /** The request that loads the site's home page. */
  const IndexRequest: Request := Request(DefaultSiteUrl, [], RequestTimeout)

  /** A loaded index page. */
  datatype Index = Index(indexResp: Response)

  /** `Index()`: the class-level "initialised" flag is never set, so every
      construction requests the home page; a response that is not ok is
      reported with its status code and reason. */
  function NewIndex(indexResp: Response): (r: Fetched<Index>)
    ensures r.issued == [IndexRequest]
    ensures r.outcome.Success? <==> IsOk(indexResp.status)
    ensures r.outcome.Failure? ==> r.outcome.error == LoadIndexError(indexResp.status, indexResp.reason)
    ensures r.outcome.Success? ==> r.outcome.value.indexResp == indexResp
  {
    if IsOk(indexResp.status) then Fetched([IndexRequest], Success(Index(indexResp)))
    else Fetched([IndexRequest], Failure(LoadIndexError(indexResp.status, indexResp.reason)))
  }

  // ---------------------------------------------------------------------
  // Expired download keys

  /** The sentence the site shows once the download keys have expired. */
  const ExpiryMarker: string := "Your download keys have expired"

  /** The pattern "any characters, the marker, any characters" without
      DOTALL cannot cross a line break, so its first match is the first
      line that mentions the marker. The result is that line's index. */
  function FirstMarkedLine(lines: seq<string>, marker: string): (r: Option<nat>)
    ensures r.None? <==> forall k | 0 <= k < |lines| :: !Contains(lines[k], marker)
    ensures r.Some? ==> r.value < |lines| && Contains(lines[r.value], marker)
    ensures r.Some? ==> forall k | 0 <= k < r.value :: !Contains(lines[k], marker)
    decreases |lines|
  {
    if |lines| == 0 then None
    else if Contains(lines[0], marker) then Some(0)
    else
      assert forall k | 1 <= k < |lines| :: lines[k] == lines[1..][k - 1];
      match FirstMarkedLine(lines[1..], marker)
      case None => None
      case Some(k) => Some(k + 1)
  }

  /** `"text/html" in headers.get("Content-Type", "")`. */
  predicate IsHtml(contentType: Option<string>) {
    Contains(contentType.GetOr(""), "text/html")
  }

  /** A missing header is not HTML; a header is HTML when "text/html"
      appears anywhere in it, parameters such as the charset included,
      and never when it is shorter than "text/html". */
  lemma HtmlContentType(before: string, after: string, short: string)
    requires |short| < |"text/html"|
    ensures !IsHtml(None)
    ensures IsHtml(Some(before + "text/html" + after))
    ensures !IsHtml(Some(short))
  {
    var t := before + "text/html" + after;
    assert t[|before|..][..|"text/html"|] == "text/html";
    assert StartsWith(t[|before|..], "text/html");
  }

  /** Classifying a response that passed the status check. In an HTML page
      whose body mentions the marker, the first link of the first line that
      does is resolved against the site and reported as the place to renew
      the keys; `anchorsOf` stands for parsing that line and listing its
      anchors. Anything else is returned unchanged. */
  function CheckExpiry(resp: Response, anchorsOf: string -> seq<Anchor>): (r: Result<Response, FetchError>)
    ensures r.Success? <==>
              (!IsHtml(resp.contentType)
               || forall k | 0 <= k < |Split(resp.body, '\n')| :: !Contains(Split(resp.body, '\n')[k], ExpiryMarker))
    ensures r.Success? ==> r.value == resp
    ensures r.Failure? ==> (r.error.SessionExpired? || r.error == MalformedExpiryNotice)
    ensures r.Failure? ==>
              var lines := Split(resp.body, '\n');
              exists k | 0 <= k < |lines| ::
                && Contains(lines[k], ExpiryMarker)
                && (forall j | 0 <= j < k :: !Contains(lines[j], ExpiryMarker))
                && var anchors := anchorsOf(lines[k]);
                   r.error == if |anchors| > 0 && anchors[0].href.Some?
                              then SessionExpired(AbsoluteUrl(anchors[0].href.value))
                              else MalformedExpiryNotice
  {
    if !IsHtml(resp.contentType) then Success(resp)
    else
      var lines := Split(resp.body, '\n');
      match FirstMarkedLine(lines, ExpiryMarker)
      case None => Success(resp)
      case Some(k) =>
        var anchors := anchorsOf(lines[k]);
        if |anchors| > 0 && anchors[0].href.Some? then Failure(SessionExpired(AbsoluteUrl(anchors[0].href.value)))
        else Failure(MalformedExpiryNotice)
  }

  // ---------------------------------------------------------------------
  // Fetching a resource

  /** `Metadata.get_resource`. Without a session cookie the index page is
      loaded first, and its failure ends the fetch. Then the resource is
      requested; an error status is reported before the body is looked at;
      an HTML body announcing expired keys fails with the renewal link. The
      two responses are what the two requests would be answered with. */
  function GetResource(hasSessionCookie: bool, req: Request, indexResp: Response, resp: Response,
                       anchorsOf: string -> seq<Anchor>): (r: Fetched<Response>)
    ensures r.issued == (if hasSessionCookie then [req] else if IsOk(indexResp.status) then [IndexRequest, req] else [IndexRequest])
    ensures !hasSessionCookie && !IsOk(indexResp.status) ==>
              r.outcome == Failure(LoadIndexError(indexResp.status, indexResp.reason))
    ensures (hasSessionCookie || IsOk(indexResp.status)) && !IsOk(resp.status) ==>
              r.outcome == Failure(HttpError(resp.status, resp.reason))
    ensures (hasSessionCookie || IsOk(indexResp.status)) && IsOk(resp.status) ==>
              r.outcome == CheckExpiry(resp, anchorsOf)
  {
    var boot := NewIndex(indexResp);
    if !hasSessionCookie && boot.outcome.Failure? then Fetched(boot.issued, Failure(boot.outcome.error))
    else
      var issued := (if hasSessionCookie then [] else boot.issued) + [req];
      if !IsOk(resp.status) then Fetched(issued, Failure(HttpError(resp.status, resp.reason)))
      else Fetched(issued, CheckExpiry(resp, anchorsOf))
  }

  /** A successful fetch hands back the response it was given, which was
      ok, and which is not an HTML page announcing expired keys. */
  lemma GetResourceSuccess(hasSessionCookie: bool, req: Request, indexResp: Response, resp: Response,
                           anchorsOf: string -> seq<Anchor>)
    requires GetResource(hasSessionCookie, req, indexResp, resp, anchorsOf).outcome.Success?
    ensures GetResource(hasSessionCookie, req, indexResp, resp, anchorsOf).outcome.value == resp
    ensures IsOk(resp.status)
    ensures IsHtml(resp.contentType) ==> !Contains(resp.body, ExpiryMarker)
  {
    var g := GetResource(hasSessionCookie, req, indexResp, resp, anchorsOf);
    assert (hasSessionCookie || IsOk(indexResp.status)) && IsOk(resp.status);
    assert g.outcome == CheckExpiry(resp, anchorsOf);
    if IsHtml(resp.contentType) {
      MarkerOnOneLine();
      NoMarkedLine(resp.body, ExpiryMarker);
    }
  }

  /** The expiry sentence holds no line break, so it is found within a line. */
  lemma MarkerOnOneLine()
    ensures '\n' !in ExpiryMarker
  {
  }

  // ---------------------------------------------------------------------
  // Lines and substrings

  /** Every line of `s` is a piece of `s`: a substring found in a line is
      found in `s`, and `s` holds no marker free of line breaks that no line
      holds. */
  lemma {:induction false} NoMarkedLine(s: string, marker: string)
    requires '\n' !in marker
    requires forall k | 0 <= k < |Split(s, '\n')| :: !Contains(Split(s, '\n')[k], marker)
    ensures !Contains(s, marker)
  {
    if Contains(s, marker) {
      var i :| 0 <= i <= |s| && StartsWith(s[i..], marker);
      var k := MarkedLineAt(s, marker, i);
      assert false;
    }
  }

  /** The line holding an occurrence of a break-free `marker` that starts at
      position `i` of `s`. */
  lemma {:induction false} MarkedLineAt(s: string, marker: string, i: nat) returns (k: nat)
    requires '\n' !in marker
    requires i <= |s| && StartsWith(s[i..], marker)
    ensures k < |Split(s, '\n')| && Contains(Split(s, '\n')[k], marker)
    decreases |s|
  {
    var parts := Split(s, '\n');
    if |s| == 0 {
      k := 0;
      assert parts == [""];
      assert StartsWith(parts[0][0..], marker);
    } else {
      var rest := Split(s[1..], '\n');
      if i == 0 {
        // The occurrence starts the first line.
        k := 0;
        if |marker| > 0 {
          assert s[0] == marker[0];
          assert s[0] != '\n';
        }
        LineStartsWith(s, marker);
      } else {
        assert s[1..][i - 1..] == s[i..];
        var k' := MarkedLineAt(s[1..], marker, i - 1);
        if s[0] == '\n' {
          k := k' + 1;
          assert parts == [""] + rest;
        } else {
          assert parts == [[s[0]] + rest[0]] + rest[1..];
          if k' == 0 {
            k := 0;
            var j :| 0 <= j <= |rest[0]| && StartsWith(rest[0][j..], marker);
            assert ([s[0]] + rest[0])[j + 1..] == rest[0][j..];
          } else {
            k := k';
          }
        }
      }
    }
  }

  /** A break-free `marker` at the start of `s` is at the start of its
      first line. */
  lemma {:induction false} LineStartsWith(s: string, marker: string)
    requires '\n' !in marker
    requires StartsWith(s, marker)
    ensures Contains(Split(s, '\n')[0], marker)
    decreases |s|
  {
    var parts := Split(s, '\n');
    if |marker| == 0 {
      assert StartsWith(parts[0][0..], marker);
    } else {
      assert s[0] == marker[0] && s[0] != '\n';
      var rest := Split(s[1..], '\n');
      assert parts == [[s[0]] + rest[0]] + rest[1..];
      var tail := marker[1..];
      assert StartsWith(s[1..], tail);
      LineStartsWithPrefix(s[1..], tail);
      assert StartsWith(parts[0][0..], marker);
    }
  }

  /** A break-free `p` at the start of `s` lies within the first line. */
  lemma {:induction false} LineStartsWithPrefix(s: string, p: string)
    requires '\n' !in p
    requires StartsWith(s, p)
    ensures StartsWith(Split(s, '\n')[0], p)
    decreases |s|
  {
    if |p| > 0 {
      assert s[0] == p[0] && s[0] != '\n';
      var rest := Split(s[1..], '\n');
      assert Split(s, '\n') == [[s[0]] + rest[0]] + rest[1..];
      LineStartsWithPrefix(s[1..], p[1..]);
    }
  }

  // ---------------------------------------------------------------------
  // Searching

  /** The categories a search may be run by. */
  const SearchByOptions: seq<string> := ["series", "episodes"]

  /** The category used when the caller gives none. */
  const DefaultSearchBy: string := "series"

  lemma SearchByListed()
    ensures |SearchByOptions| == 2 && DefaultSearchBy in SearchByOptions
  {
  }

  /** The search page. */
  const SearchUrl: string := "https://fztvseries.live/search.php"

  /** The search page is the site-relative "search.php". */
  lemma SearchUrlUnderSite()
    ensures SearchUrl == AbsoluteUrl("search.php")
  {
    assert "search.php"[..1] != "/" by { assert "search.php"[..1][0] == 's'; }
    AbsoluteUrlOfRelative("search.php");
  }

  /** The query string of a search, in the order it is sent. */
  function SearchParams(query: string, category: string): (r: seq<(string, string)>)
    ensures |r| == 5
    ensures r[0] == ("search", query) && r[4] == ("by", category)
    ensures r[1] == ("beginsearch", "") && r[2] == ("insearch", "Search") && r[3] == ("vsearch", "")
    ensures forall j, k | 0 <= j < k < |r| :: r[j].0 != r[k].0
  {
    [("search", query), ("beginsearch", ""), ("insearch", "Search"), ("vsearch", ""), ("by", category)]
  }

  /** The request a search issues: the site-relative "search.php" with the
      search parameters, under the default timeout. */
  function SearchRequest(query: string, category: string): (r: Request)
    ensures r.url == AbsoluteUrl("search.php") && r.timeout == RequestTimeout
    ensures r.params == SearchParams(query, category)
  {
    SearchUrlUnderSite();
    Request(SearchUrl, SearchParams(query, category), RequestTimeout)
  }

  /** `Index.search`: a category other than "series" or "episodes" is
      rejected before anything is requested; otherwise the search page is
      fetched and its text returned. */
  function Search(query: string, category: string, hasSessionCookie: bool, indexResp: Response,
                  resp: Response, anchorsOf: string -> seq<Anchor>): (r: Result<Fetched<string>, MembershipError<string>>)
    ensures r.Success? <==> category in SearchByOptions
    ensures r.Failure? ==> r.error == NotOneOf(DefaultIdentity, category, SearchByOptions)
    ensures r.Success? ==>
              var got := GetResource(hasSessionCookie, SearchRequest(query, category), indexResp, resp, anchorsOf);
              && r.value.issued == got.issued
              && (r.value.outcome.Success? <==> got.outcome.Success?)
              && (r.value.outcome.Failure? ==> r.value.outcome.error == got.outcome.error)
              && (r.value.outcome.Success? ==> r.value.outcome.value == resp.body)
  {
    match AssertMembership(category, SearchByOptions, DefaultIdentity)
    case Some(e) => Failure(e)
    case None =>
      var got := GetResource(hasSessionCookie, SearchRequest(query, category), indexResp, resp, anchorsOf);
      match got.outcome
      case Failure(e) => Success(Fetched(got.issued, Failure(e)))
      case Success(page) => Success(Fetched(got.issued, Success(page.body)))
  }
}

=== FILE: markup.dfy ===
/** What the HTML parser hands the handlers, as plain data, and the two
    textual rewrites applied to raw markup: tags to newlines and doubled
    newlines to single ones.

    The tag pattern is the regular expression `<`, an optional non-word
    character, any number of word characters, an optional `/`, then `>`. */
module Markup {
  import opened Wrappers
  import opened Text

  /** An `<a>` element: its text and its `href` attribute, if any. */
  datatype Anchor = Anchor(text: string, href: Option<string>)

  /** A `div.mainbox2` navigation box: its anchors in document order. */
  datatype NavBlock = NavBlock(anchors: seq<Anchor>)

  /** A `div.mainbox3` series box. `titleText` is the text of the `<b>` in the
      link's `<small>`; `href` the link target; `coverSrc` the `src` of its
      `<img>`; `lastSmallText` the text of the span's last `<small>` (absent
      when it has none); `navigators` the `div.mainbox2` boxes inside it. */
  datatype SeriesBlock = SeriesBlock(
    titleText: string,
    href: Option<string>,
    coverSrc: Option<string>,
    lastSmallText: Option<string>,
    navigators: seq<NavBlock>)

  /** A `<small>` inside an episode's span: the text of its first `<b>` and
      of its first `<i>` (absent when there is none), and its `str(tag)`
      serialisation as Beautiful Soup writes it (`<br>` written `<br/>`,
      `&` escaped). */
  datatype Small = Small(bold: Option<string>, italic: Option<string>, markup: string)

  /** A `div.mainbox` episode box: the `src` of its `<img>`, the anchors and
      the `<small>` elements of its span, in document order. */
  datatype EpisodeBlock = EpisodeBlock(coverSrc: Option<string>, files: seq<Anchor>, smalls: seq<Small>)

  /** A parsed page: every `div.mainbox3`, every `div.mainbox` and every
      `div.mainbox2` in document order. */
  datatype Page = Page(seriesBlocks: seq<SeriesBlock>, episodeBlocks: seq<EpisodeBlock>, navigators: seq<NavBlock>)

  /** Python's `\w` on ASCII: letters, digits and underscore. */
  predicate IsWordChar(c: char) {
    ('a' <= c <= 'z') || ('A' <= c <= 'Z') || ('0' <= c <= '9') || c == '_'
  }

  /** Length of the run of word characters at the start of `s`. */
  function WordRun(s: string): (n: nat)
    ensures n <= |s|
    ensures forall k | 0 <= k < n :: IsWordChar(s[k])
    ensures n == |s| || !IsWordChar(s[n])
  {
    if |s| > 0 && IsWordChar(s[0]) then 1 + WordRun(s[1..]) else 0
  }

  /** The closing `/?>` of the tag pattern starting at index `k`. */
  function CloseAt(s: string, k: nat): Option<nat> {
    if k < |s| && s[k] == '>' then Some(k + 1)
    else if k + 1 < |s| && s[k] == '/' && s[k + 1] == '>' then Some(k + 2)
    else None
  }

  /** Every character of `s` is a word character. */
  predicate AllWord(s: string) {
    forall k | 0 <= k < |s| :: IsWordChar(s[k])
  }

  /** `\w*` followed by `/?`: word characters, then at most one slash. */
  predicate WordsThenSlash(b: string) {
    AllWord(b) || (|b| > 0 && b[|b| - 1] == '/' && AllWord(b[..|b| - 1]))
  }

  /** `s`, as a whole, matches the tag pattern: `<`, then `\W?`, `\w*`, `/?`
      and `>`. */
  predicate IsTag(s: string) {
    && |s| >= 2 && s[0] == '<' && s[|s| - 1] == '>'
    && (WordsThenSlash(s[1..|s| - 1])
        || (|s| >= 3 && !IsWordChar(s[1]) && WordsThenSlash(s[2..|s| - 1])))
  }

  /** A word run that stops at a non-word character has exactly that length. */
  lemma WordRunUpTo(x: string, j: nat)
    requires j < |x| && AllWord(x[..j]) && !IsWordChar(x[j])
    ensures WordRun(x) == j
  {
    assert forall i | 0 <= i < j :: x[..j][i] == x[i];
  }

  /** Closing a word run that starts at `start` (after `<`, or after `<` and
      one non-word character) at index `k` gives a whole tag. */
  lemma CloseAtIsTag(s: string, start: nat, k: nat)
    requires 1 <= start <= k <= |s| && s[0] == '<'
    requires start == 1 || (start == 2 && !IsWordChar(s[1]))
    requires AllWord(s[start..k])
    ensures CloseAt(s, k).Some? ==> IsTag(s[..CloseAt(s, k).value])
  {
    if CloseAt(s, k).Some? {
      var m := CloseAt(s, k).value;
      var t := s[..m];
      assert t[start..|t| - 1] == s[start..m - 1];
      if m == k + 2 {
        assert s[start..m - 1][..|s[start..m - 1]| - 1] == s[start..k];
      }
      assert WordsThenSlash(t[start..|t| - 1]);
    }
  }

  /** Both tries of the matcher end in a whole tag when they succeed. */
  lemma TagTriesSound(s: string)
    requires |s| > 0 && s[0] == '<'
    ensures |s| > 1 && !IsWordChar(s[1]) && CloseAt(s, 2 + WordRun(s[2..])).Some? ==>
              IsTag(s[..CloseAt(s, 2 + WordRun(s[2..])).value])
    ensures CloseAt(s, 1 + WordRun(s[1..])).Some? ==> IsTag(s[..CloseAt(s, 1 + WordRun(s[1..])).value])
  {
    if |s| > 1 && !IsWordChar(s[1]) {
      var n := WordRun(s[2..]);
      assert s[2..2 + n] == s[2..][..n];
      CloseAtIsTag(s, 2, 2 + n);
    }
    var n := WordRun(s[1..]);
    assert s[1..1 + n] == s[1..][..n];
    CloseAtIsTag(s, 1, 1 + n);
  }

  /** Word characters and an optional slash from `start` up to a `>` at
      `n - 1`: the word run from `start` ends where `/?>` closes, at `n`. */
  lemma WordsThenSlashCloses(s: string, start: nat, n: nat)
    requires start < n <= |s| && s[n - 1] == '>' && WordsThenSlash(s[start..n - 1])
    ensures CloseAt(s, start + WordRun(s[start..])) == Some(n)
  {
    var b := s[start..n - 1];
    var j := if AllWord(b) then |b| else |b| - 1;
    assert s[start..][..j] == b[..j];
    assert s[start..][j] == s[start + j];
    WordRunUpTo(s[start..], j);
  }

  /** A tag of length `n` at the start of `s` is where one of the two tries
      of the matcher closes. */
  lemma TagFound(s: string, n: nat)
    requires 2 <= n <= |s| && IsTag(s[..n])
    ensures (|s| > 1 && !IsWordChar(s[1]) && CloseAt(s, 2 + WordRun(s[2..])) == Some(n))
            || CloseAt(s, 1 + WordRun(s[1..])) == Some(n)
  {
    var t := s[..n];
    assert t[1..|t| - 1] == s[1..n - 1] && t[|t| - 1] == s[n - 1];
    if |t| >= 3 && !IsWordChar(t[1]) && WordsThenSlash(t[2..|t| - 1]) {
      assert t[2..|t| - 1] == s[2..n - 1] && t[1] == s[1];
      WordsThenSlashCloses(s, 2, n);
    } else {
      WordsThenSlashCloses(s, 1, n);
    }
  }

  /** When the greedy try closes, the plain try closes no later: after a
      non-word character only `<>` or `</>` can close it. */
  lemma PlainBelowGreedy(s: string)
    requires |s| > 1 && s[0] == '<' && !IsWordChar(s[1])
    requires CloseAt(s, 2 + WordRun(s[2..])).Some?
    ensures CloseAt(s, 1 + WordRun(s[1..])).Some? ==>
              CloseAt(s, 1 + WordRun(s[1..])).value <= CloseAt(s, 2 + WordRun(s[2..])).value
  {
    assert WordRun(s[1..]) == 0;
  }

  /** Length of the match of the tag pattern at the start of `s`, as Python's
      backtracking matcher finds it: the optional non-word character is tried
      first, `\w*` is maximal. A match is a whole tag, and no match means no
      tag starts at the front of `s`. The match is the longest tag at the
      front: the greedy `\W?` is tried first, and when it fails only `<>`
      or `</>` remain. */
  function TagMatch(s: string): (m: Option<nat>)
    ensures m.Some? ==> 2 <= m.value <= |s| && IsTag(s[..m.value])
    ensures m.None? ==> forall n | 2 <= n <= |s| :: !IsTag(s[..n])
    ensures m.Some? ==> forall n | m.value < n <= |s| :: !IsTag(s[..n])
  {
    if |s| == 0 || s[0] != '<' then
      assert forall n | 2 <= n <= |s| :: s[..n][0] == s[0];
      None
    else
      var greedy :=
        if |s| > 1 && !IsWordChar(s[1]) then CloseAt(s, 2 + WordRun(s[2..])) else None;
      TagTriesSound(s);
      var plain := CloseAt(s, 1 + WordRun(s[1..]));
      var m := if greedy.Some? then greedy else plain;
      assert forall n | 2 <= n <= |s| && IsTag(s[..n]) :: m.Some? && n <= m.value by {
        forall n | 2 <= n <= |s| && IsTag(s[..n])
          ensures m.Some? && n <= m.value
        {
          TagFound(s, n);
          if greedy.Some? && plain == Some(n) {
            PlainBelowGreedy(s);
          }
        }
      }
      m
  }

  /** `re.sub` of the tag pattern by `"\n"`: each match, scanning left to
      right, replaced by a newline. */
  function ReplaceTags(s: string): (r: string)
    ensures '<' !in s ==> r == s
    decreases |s|
  {
    if |s| == 0 then s
    else
      match TagMatch(s)
      case Some(n) => "\n" + ReplaceTags(s[n..])
      case None => [s[0]] + ReplaceTags(s[1..])
  }

  /** An opening tag with a word-character name becomes one newline. */
  lemma ReplaceOpeningTag(name: string, rest: string)
    requires |name| > 0 && forall k | 0 <= k < |name| :: IsWordChar(name[k])
    ensures ReplaceTags("<" + name + ">" + rest) == "\n" + ReplaceTags(rest)
  {
    var s := "<" + name + ">" + rest;
    WordRunOfName(name, ">" + rest);
    assert s[1..] == name + (">" + rest);
    assert s[|name| + 2..] == rest;
  }

  /** A closing tag with a word-character name becomes one newline. */
  lemma ReplaceClosingTag(name: string, rest: string)
    requires forall k | 0 <= k < |name| :: IsWordChar(name[k])
    ensures ReplaceTags("</" + name + ">" + rest) == "\n" + ReplaceTags(rest)
  {
    var s := "</" + name + ">" + rest;
    WordRunOfName(name, ">" + rest);
    assert s[2..] == name + (">" + rest);
    assert s[0] == '<' && s[1] == '/' && !IsWordChar(s[1]) && s[|name| + 2] == '>';
    assert TagMatch(s) == Some(|name| + 3);
    assert s[|name| + 3..] == rest;
  }

  /** A self-closing tag such as `<br/>`, the way the parser writes `<br>`
      back out, becomes one newline. */
  lemma ReplaceSelfClosingTag(name: string, rest: string)
    requires forall k | 0 <= k < |name| :: IsWordChar(name[k])
    ensures ReplaceTags("<" + name + "/>" + rest) == "\n" + ReplaceTags(rest)
  {
    var s := "<" + name + "/>" + rest;
    WordRunOfName(name, "/>" + rest);
    assert s[1..] == name + ("/>" + rest);
    assert s[0] == '<' && s[|name| + 1] == '/' && s[|name| + 2] == '>';
    if |name| > 0 {
      assert IsWordChar(s[1]);
    } else {
      assert s[2..] == ">" + rest;
      assert WordRun(s[2..]) == 0;
    }
    assert TagMatch(s) == Some(|name| + 3);
    assert s[|name| + 3..] == rest;
  }

  /** A character other than `<` is copied by the tag rewrite. */
  lemma ReplaceTagsChar(c: char, rest: string)
    requires c != '<'
    ensures ReplaceTags([c] + rest) == [c] + ReplaceTags(rest)
  {
    assert ([c] + rest)[1..] == rest;
  }

  /** Text without `<` passes through the tag rewrite unchanged, whatever
      follows it. */
  lemma {:induction false} ReplaceTagsPlain(text: string, rest: string)
    requires forall k | 0 <= k < |text| :: text[k] != '<'
    ensures ReplaceTags(text + rest) == text + ReplaceTags(rest)
    decreases |text|
  {
    if |text| > 0 {
      var c, t := text[0], text[1..];
      assert text == [c] + t;
      assert text + rest == [c] + (t + rest);
      ReplaceTagsChar(c, t + rest);
      ReplaceTagsPlain(t, rest);
      AppendAssoc([c], t, ReplaceTags(rest));
    } else {
      assert text + rest == rest;
    }
  }

  lemma {:induction false} WordRunOfName(name: string, rest: string)
    requires forall k | 0 <= k < |name| :: IsWordChar(name[k])
    requires |rest| > 0 && !IsWordChar(rest[0])
    ensures WordRun(name + rest) == |name|
  {
    if |name| > 0 {
      assert (name + rest)[1..] == name[1..] + rest;
      WordRunOfName(name[1..], rest);
    }
  }

  /** `re.sub("\n\n", "\n", s)`: each non-overlapping blank-line pair,
      scanning left to right, becomes a single newline. */
  function CollapseNewlines(s: string): (r: string)
    ensures |r| <= |s|
    ensures !Contains(s, "\n\n") ==> r == s
    decreases |s|
  {
    if StartsWith(s, "\n\n") then
      assert s[0..] == s;
      "\n" + CollapseNewlines(s[2..])
    else if |s| == 0 then s
    else
      assert !Contains(s, "\n\n") ==> !Contains(s[1..], "\n\n") by {
        forall i | 0 <= i <= |s[1..]| && StartsWith(s[1..][i..], "\n\n")
          ensures Contains(s, "\n\n")
        {
          assert s[1..][i..] == s[i + 1..];
        }
      }
      [s[0]] + CollapseNewlines(s[1..])
  }

  /** Collapsing removes only newlines: every other character survives, in
      order. */
  lemma {:induction false} CollapseKeepsText(s: string)
    ensures RemoveAll(CollapseNewlines(s), '\n') == RemoveAll(s, '\n')
    decreases |s|
  {
    if StartsWith(s, "\n\n") {
      assert s[0] == s[..2][0] == '\n' && s[1] == s[..2][1] == '\n';
      var tail := CollapseNewlines(s[2..]);
      assert CollapseNewlines(s) == ['\n'] + tail;
      CollapseKeepsText(s[2..]);
      RemoveAllCons('\n', tail, '\n');
      assert RemoveAll(CollapseNewlines(s), '\n') == RemoveAll(s[2..], '\n');
      RemoveAllCons(s[0], s[1..], '\n');
      RemoveAllCons(s[1], s[2..], '\n');
      assert s == [s[0]] + s[1..] && s[1..] == [s[1]] + s[2..];
      assert RemoveAll(s, '\n') == RemoveAll(s[1..], '\n') == RemoveAll(s[2..], '\n');
    } else if |s| > 0 {
      var tail := CollapseNewlines(s[1..]);
      assert CollapseNewlines(s) == [s[0]] + tail;
      CollapseKeepsText(s[1..]);
      RemoveAllCons(s[0], tail, '\n');
      RemoveAllCons(s[0], s[1..], '\n');
      assert s == [s[0]] + s[1..];
    }
  }

  /** A blank-line pair at the front collapses to one newline. */
  lemma CollapsePair(rest: string)
    ensures CollapseNewlines("\n\n" + rest) == "\n" + CollapseNewlines(rest)
  {
    var s := "\n\n" + rest;
    assert s[..2] == "\n\n" && s[2..] == rest;
  }

  /** A lone newline at the front stays. */
  lemma CollapseSingle(rest: string)
    requires rest == [] || rest[0] != '\n'
    ensures CollapseNewlines("\n" + rest) == "\n" + CollapseNewlines(rest)
  {
    var s := "\n" + rest;
    assert s[1..] == rest;
    assert !StartsWith(s, "\n\n") by {
      if |s| >= 2 {
        assert s[..2][1] == s[1];
      }
    }
  }

  /** A character other than a newline is copied by the collapse. */
  lemma CollapseChar(c: char, rest: string)
    requires c != '\n'
    ensures CollapseNewlines([c] + rest) == [c] + CollapseNewlines(rest)
  {
    var s := [c] + rest;
    assert s[1..] == rest;
    assert !StartsWith(s, "\n\n") by {
      if |s| >= 2 {
        assert s[..2][0] == s[0];
      }
    }
  }

  /** Text without newlines passes through the collapse unchanged, whatever
      follows it. */
  lemma {:induction false} CollapsePlain(text: string, rest: string)
    requires forall k | 0 <= k < |text| :: text[k] != '\n'
    ensures CollapseNewlines(text + rest) == text + CollapseNewlines(rest)
    decreases |text|
  {
    if |text| > 0 {
      var c, t := text[0], text[1..];
      assert text == [c] + t;
      assert text + rest == [c] + (t + rest);
      CollapseChar(c, t + rest);
      CollapsePlain(t, rest);
      AppendAssoc([c], t, CollapseNewlines(rest));
    } else {
      assert text + rest == rest;
    }
  }

  /** The metadata lines of a `<small>`: tags become newlines, doubled
      newlines are collapsed once, the text is stripped and split on `\n`. */
  function MetadataLines(markup: string): (lines: seq<string>)
    ensures |lines| >= 1
    ensures forall k | 0 <= k < |lines| :: '\n' !in lines[k]
  {
    Split(Strip(CollapseNewlines(ReplaceTags(markup))), '\n')
  }
  /** Segments of `<small>` text: no tag may start inside them and they lie
      on one line. */
  predicate PlainSegment(text: string) {
    '<' !in text && '\n' !in text
  }

  /** An opening, closing or self-closing tag with a word-character name. */
  predicate NamedTag(tag: string)
  {
    && |tag| >= 3 && tag[0] == '<' && tag[|tag| - 1] == '>'
    && ((tag[1] == '/' && AllWord(tag[2..|tag| - 1]))
        || (IsWordChar(tag[1]) && WordsThenSlash(tag[1..|tag| - 1])))
  }

  /** The five tags of a metadata `<small>` are named tags. */
  lemma SmallTagsNamed()
    ensures NamedTag("<small>") && NamedTag("</small>") && NamedTag("<b>")
            && NamedTag("</b>") && NamedTag("<br/>")
  {
    assert "small"[..] == "<small>"[1..6];
    assert "small"[..] == "</small>"[2..7];
    assert "b"[..] == "</b>"[2..3];
    assert "br/"[..] == "<br/>"[1..4] && "br/"[..2] == "br";
  }

  /** A whole tag at the front, written as an opening, closing or
      self-closing tag with a word-character name, becomes one newline. */
  lemma TagAtFront(tag: string, rest: string)
    requires NamedTag(tag)
    ensures ReplaceTags(tag + rest) == "\n" + ReplaceTags(rest)
  {
    var s := tag + rest;
    assert s[..|tag|] == tag && s[|tag|..] == rest;
    if tag[1] == '/' && AllWord(tag[2..|tag| - 1]) {
      assert s[2..][..|tag| - 3] == tag[2..|tag| - 1];
      assert s[2..][|tag| - 3] == '>';
      WordRunUpTo(s[2..], |tag| - 3);
    } else {
      var b := tag[1..|tag| - 1];
      var j := if AllWord(b) then |b| else |b| - 1;
      assert s[1..][..j] == b[..j];
      assert s[1..][j] == s[j + 1];
      WordRunUpTo(s[1..], j);
    }
    assert TagMatch(s) == Some(|tag|);
  }

  /** Regrouping helper: the `<small>` markup nested from the right, tag by
      tag, so that each tag lemma applies to one part. */
  lemma SmallMarkupShape(first: string, second: string, third: string)
    ensures "<small><b>" + first + "</b><br/>" + second + "<br/>" + third + "</small>"
         == "<small>" + ("<b>" + (first + ("</b>" + ("<br/>" + (second + ("<br/>" + (third + "</small>")))))))
  {
    assert "<small><b>" == "<small>" + "<b>";
    assert "</b><br/>" == "</b>" + "<br/>";
  }

  /** Regrouping helper: the rewritten `<small>` nested from the right, once
      newline by newline and once by blank-line pairs. */
  lemma RewrittenShape(first: string, second: string, third: string)
    ensures "\n\n" + first + "\n\n" + second + "\n" + third + "\n"
         == "\n" + ("\n" + (first + ("\n" + ("\n" + (second + ("\n" + (third + "\n")))))))
    ensures "\n\n" + first + "\n\n" + second + "\n" + third + "\n"
         == "\n\n" + (first + ("\n\n" + (second + ("\n" + (third + "\n")))))
  {
    assert "\n\n" == "\n" + "\n";
  }

  /** Regrouping helper: the collapsed `<small>` nested from the right, and
      as one body between two newlines. */
  lemma CollapsedShape(first: string, second: string, third: string)
    ensures "\n" + first + "\n" + second + "\n" + third + "\n"
         == "\n" + (first + ("\n" + (second + ("\n" + (third + "\n")))))
    ensures "\n" + first + "\n" + second + "\n" + third + "\n"
         == "\n" + (first + "\n" + second + "\n" + third) + "\n"
  {
  }

  /** The tag rewrite of a three-line `<small>`, with the first line in
      `<b>` and `<br/>` between lines: each tag becomes one newline. */
  lemma ReplaceTagsOfSmall(first: string, second: string, third: string)
    requires PlainSegment(first) && PlainSegment(second) && PlainSegment(third)
    ensures ReplaceTags("<small><b>" + first + "</b><br/>" + second + "<br/>" + third + "</small>")
            == "\n\n" + first + "\n\n" + second + "\n" + third + "\n"
  {
    SmallTagsNamed();
    var d := "<br/>" + (second + ("<br/>" + (third + "</small>")));
    ReplaceTagsOfTail(second, third);
    var f := "</b>" + d;
    TagAtFront("</b>", d);
    var g := first + f;
    ReplaceTagsPlain(first, f);
    var h := "<b>" + g;
    TagAtFront("<b>", g);
    TagAtFront("<small>", h);
    SmallMarkupShape(first, second, third);
    RewrittenShape(first, second, third);
  }

  /** The last two lines of a metadata `<small>`, from the `<br/>` between
      them to the closing tag. */
  lemma ReplaceTagsOfTail(second: string, third: string)
    requires PlainSegment(second) && PlainSegment(third)
    ensures ReplaceTags("<br/>" + (second + ("<br/>" + (third + "</small>"))))
            == "\n" + (second + ("\n" + (third + "\n")))
  {
    SmallTagsNamed();
    var a := "</small>";
    TagAtFront(a, "");
    assert a + "" == a;
    var b := third + a;
    ReplaceTagsPlain(third, a);
    var c := "<br/>" + b;
    TagAtFront("<br/>", b);
    var d := second + c;
    ReplaceTagsPlain(second, c);
    TagAtFront("<br/>", d);
  }

  /** Collapsing the rewritten `<small>`: each blank-line pair left by two
      adjacent tags becomes one newline. */
  lemma CollapseOfSmall(first: string, second: string, third: string)
    requires PlainSegment(first) && PlainSegment(second) && PlainSegment(third) && |third| > 0
    ensures CollapseNewlines("\n\n" + first + "\n\n" + second + "\n" + third + "\n")
            == "\n" + first + "\n" + second + "\n" + third + "\n"
  {
    CollapseSingle([]);
    assert "\n" + [] == "\n";
    var u := third + "\n";
    CollapsePlain(third, "\n");
    assert u[0] == third[0] != '\n';
    CollapseSingle(u);
    var s := second + ("\n" + u);
    CollapsePlain(second, "\n" + u);
    CollapsePair(s);
    var p := first + ("\n\n" + s);
    CollapsePlain(first, "\n\n" + s);
    CollapsePair(p);
    RewrittenShape(first, second, third);
    CollapsedShape(first, second, third);
  }

  /** Stripping drops the newline at each end and nothing else, when the
      first line does not start and the last does not end with whitespace. */
  lemma StripOfSmall(first: string, second: string, third: string)
    requires |first| > 0 && !IsSpace(first[0]) && |third| > 0 && !IsSpace(third[|third| - 1])
    ensures Strip("\n" + first + "\n" + second + "\n" + third + "\n")
            == first + "\n" + second + "\n" + third
  {
    var body := first + "\n" + second + "\n" + third;
    CollapsedShape(first, second, third);
    assert body[0] == first[0] && body[|body| - 1] == third[|third| - 1];
    StripFramed(body);
  }

  /** A text with no whitespace at either end, framed by two newlines,
      strips back to itself. */
  lemma StripFramed(body: string)
    requires |body| > 0 && !IsSpace(body[0]) && !IsSpace(body[|body| - 1])
    ensures Strip("\n" + body + "\n") == body
  {
    var s := "\n" + body + "\n";
    assert s[1..] == body + "\n" && (body + "\n")[..|body|] == body;
    StripUnchanged(body);
  }

  /** Splitting three newline-free lines joined by newlines gives them back. */
  lemma SplitOfSmall(first: string, second: string, third: string)
    requires '\n' !in first && '\n' !in second && '\n' !in third
    ensures Split(first + "\n" + second + "\n" + third, '\n') == [first, second, third]
  {
    var tail := second + "\n" + third;
    SplitAfterPiece(first, tail, '\n');
    SplitAfterPiece(second, third, '\n');
    SplitWithoutSep(third, '\n');
    assert first + "\n" + second + "\n" + third == first + [ '\n' ] + tail;
    assert tail == second + ['\n'] + third;
  }

  /** A `<small>` written as a bold first line and two more lines after
      `<br/>` gives exactly those three metadata lines. */
  lemma MetadataLinesOfSmall(first: string, second: string, third: string)
    requires PlainSegment(first) && PlainSegment(second) && PlainSegment(third)
    requires |first| > 0 && !IsSpace(first[0]) && |third| > 0 && !IsSpace(third[|third| - 1])
    ensures MetadataLines("<small><b>" + first + "</b><br/>" + second + "<br/>" + third + "</small>")
            == [first, second, third]
  {
    ReplaceTagsOfSmall(first, second, third);
    CollapseOfSmall(first, second, third);
    StripOfSmall(first, second, third);
    SplitOfSmall(first, second, third);
  }
}

=== FILE: models.dfy ===
/** The records the handlers produce, one datatype per model class. URL
    fields that the original types as `HttpUrl` are plain strings here. */
module Models {
  import opened Wrappers

  /** A series listed on a search-results page. */
  datatype SeriesInSearch = SeriesInSearch(title: string, url: string, coverPhoto: string, about: string)

  /** The four navigation links of a results page; each may be absent. */
  datatype PageLinks = PageLinks(
    firstPage: Option<string>,
    previousPage: Option<string>,
    nextPage: Option<string>,
    lastPage: Option<string>)

  const NoLinks: PageLinks := PageLinks(None, None, None, None)

  /** The series listed on one results page, with its navigation links. */
  datatype SearchResults = SearchResults(series: seq<SeriesInSearch>, links: PageLinks)

  /** One downloadable file of an episode and its one-character identity. */
  datatype EpisodeFile = EpisodeFile(url: string, identity: string)

  /** An episode listed on an episode-search page. `airedOn` is kept as the
      extracted text; its date parsing is not modelled. */
  datatype EpisodeInSearch = EpisodeInSearch(
    title: string,
    files: seq<EpisodeFile>,
    coverPhoto: string,
    airedOn: string,
    about: Option<string>,
    stars: Option<string>,
    director: Option<string>,
    writer: Option<string>)

  /** The episodes listed on one results page, with its navigation links. */
  datatype EpisodeSearchResults = EpisodeSearchResults(episodes: seq<EpisodeInSearch>, links: PageLinks)

  /** Either kind of results page, as accepted by page navigation. */
  datatype AnyResults = Series(seriesResults: SearchResults) | Episodes(episodeResults: EpisodeSearchResults) {
    function Links(): PageLinks {
      match this
      case Series(s) => s.links
      case Episodes(e) => e.links
    }
  }
}

=== FILE: text.dfy ===
/** The handful of Python `str` operations the scraper relies on, stated
    over `seq<char>`: `strip()`, `split(sep)`, `replace(c, "")`,
    `startswith` and the `in` substring test. */
module Text {

  /** Python's `str.isspace` for one character (the Unicode whitespace set). */
  predicate IsSpace(c: char) {
    || c == ' ' || c == '\t' || c == '\n' || c == '\r' || c == '\U{0B}' || c == '\U{0C}'
    || ('\U{1C}' <= c <= '\U{1F}') || c == '\U{85}' || c == '\U{A0}' || c == '\U{1680}'
    || ('\U{2000}' <= c <= '\U{200A}') || c == '\U{2028}' || c == '\U{2029}'
    || c == '\U{202F}' || c == '\U{205F}' || c == '\U{3000}'
  }

  predicate AllSpace(s: string) {
    forall k | 0 <= k < |s| :: IsSpace(s[k])
  }

  /** `s.startswith(p)` */
  predicate StartsWith(s: string, p: string) {
    |p| <= |s| && s[..|p|] == p
  }

  /** `p in s` for strings: `p` occurs somewhere in `s` as a contiguous piece. */
  predicate Contains(s: string, p: string) {
    exists i | 0 <= i <= |s| :: StartsWith(s[i..], p)
  }

  /** Number of occurrences of the character `c` in `s`. */
  function Count(s: string, c: char): nat {
    if |s| == 0 then 0 else (if s[0] == c then 1 else 0) + Count(s[1..], c)
  }

  /** `r` is `s` with some whitespace cut from each end. */
  ghost predicate TrimmedOf(s: string, r: string) {
    exists i, j | 0 <= i <= j <= |s| :: r == s[i..j] && AllSpace(s[..i]) && AllSpace(s[j..])
  }

  /** `str.strip()`: whitespace removed from both ends. */
  function Strip(s: string): (r: string)
    ensures |r| <= |s|
    decreases |s|
  {
    if |s| > 0 && IsSpace(s[0]) then Strip(s[1..])
    else if |s| > 0 && IsSpace(s[|s| - 1]) then Strip(s[..|s| - 1])
    else s
  }

  /** Where `Strip` cuts: `s[..i]` and `s[j..]` are whitespace and the
      result `s[i..j]` has none at either end. */
  lemma {:induction false} StripBounds(s: string) returns (i: nat, j: nat)
    ensures i <= j <= |s| && Strip(s) == s[i..j]
    ensures AllSpace(s[..i]) && AllSpace(s[j..])
    ensures i == j || (!IsSpace(s[i]) && !IsSpace(s[j - 1]))
    decreases |s|
  {
    if |s| > 0 && IsSpace(s[0]) {
      var i', j' := StripBounds(s[1..]);
      i, j := ShiftBoundsRight(s, i', j');
    } else if |s| > 0 && IsSpace(s[|s| - 1]) {
      i, j := StripBounds(s[..|s| - 1]);
      ExtendBoundsLeft(s, i, j);
    } else {
      i, j := 0, |s|;
    }
  }

  lemma ShiftBoundsRight(s: string, i': nat, j': nat) returns (i: nat, j: nat)
    requires |s| > 0 && IsSpace(s[0])
    requires i' <= j' <= |s| - 1
    requires AllSpace(s[1..][..i']) && AllSpace(s[1..][j'..])
    ensures i == i' + 1 && j == j' + 1 && s[1..][i'..j'] == s[i..j]
    ensures AllSpace(s[..i]) && AllSpace(s[j..])
  {
    i, j := i' + 1, j' + 1;
    assert s[1..][i'..j'] == s[i..j];
    assert s[1..][j'..] == s[j..];
    assert s[..i] == [s[0]] + s[1..][..i'];
  }

  lemma ExtendBoundsLeft(s: string, i: nat, j: nat)
    requires |s| > 0 && IsSpace(s[|s| - 1])
    requires i <= j <= |s| - 1
    requires AllSpace(s[..|s| - 1][..i]) && AllSpace(s[..|s| - 1][j..])
    ensures s[..|s| - 1][i..j] == s[i..j]
    ensures AllSpace(s[..i]) && AllSpace(s[j..])
  {
    var t := s[..|s| - 1];
    assert t[..i] == s[..i];
    assert s[j..] == t[j..] + [s[|s| - 1]];
  }

  /** `Strip` removes only whitespace, and all of it. */
  lemma StripTrims(s: string)
    ensures TrimmedOf(s, Strip(s))
    ensures Strip(s) == [] || (!IsSpace(Strip(s)[0]) && !IsSpace(Strip(s)[|Strip(s)| - 1]))
  {
    var i, j := StripBounds(s);
  }

  /** The pieces of `parts` glued back with `sep` between neighbours. */
  function Join(parts: seq<string>, sep: char): string
    requires |parts| >= 1
  {
    if |parts| == 1 then parts[0] else parts[0] + [sep] + Join(parts[1..], sep)
  }

  /** `s.split(sep)` for a one-character separator: always at least one
      piece (`"".split(":") == [""]`), empty pieces kept. */
  function Split(s: string, sep: char): (parts: seq<string>)
    ensures |parts| == Count(s, sep) + 1
    ensures forall k | 0 <= k < |parts| :: sep !in parts[k]
    ensures Join(parts, sep) == s
  {
    if |s| == 0 then [""]
    else
      var rest := Split(s[1..], sep);
      if s[0] == sep then
        [""] + rest
      else
        assert s == [s[0]] + s[1..];
        [[s[0]] + rest[0]] + rest[1..]
  }

  /** `s.replace(c, "")` for a one-character `c`. */
  function RemoveAll(s: string, c: char): (r: string)
    ensures c !in r
    ensures |r| + Count(s, c) == |s|
    ensures c !in s ==> r == s
    ensures forall x | x in r :: x in s
  {
    if |s| == 0 then s
    else if s[0] == c then RemoveAll(s[1..], c)
    else [s[0]] + RemoveAll(s[1..], c)
  }

  /** Removing a character from a concatenation removes it from each part
      in place, so the kept characters stay in their order. */
  lemma {:induction false} RemoveAllConcat(a: string, b: string, c: char)
    ensures RemoveAll(a + b, c) == RemoveAll(a, c) + RemoveAll(b, c)
  {
    if |a| > 0 {
      assert (a + b)[1..] == a[1..] + b;
      RemoveAllConcat(a[1..], b, c);
      if a[0] != c {
        AppendAssoc([a[0]], RemoveAll(a[1..], c), RemoveAll(b, c));
      }
    } else {
      assert a + b == b;
    }
  }

  /** Concatenation regroups freely. */
  lemma AppendAssoc<T>(a: seq<T>, b: seq<T>, c: seq<T>)
    ensures a + (b + c) == (a + b) + c
  {
  }

  /** Removing `c` one character at a time from the front. */
  lemma RemoveAllCons(x: char, t: string, c: char)
    ensures RemoveAll([x] + t, c) == (if x == c then [] else [x]) + RemoveAll(t, c)
  {
    assert ([x] + t)[1..] == t;
  }

  /** The index of the first `c` in `s`. */
  function FirstIndex(s: string, c: char): (i: nat)
    requires c in s
    ensures i < |s| && s[i] == c && c !in s[..i]
  {
    if s[0] == c then 0 else FirstIndex(s[1..], c) + 1
  }

  lemma {:induction false} CountPositive(s: string, c: char)
    ensures Count(s, c) > 0 <==> c in s
  {
    if |s| > 0 {
      CountPositive(s[1..], c);
      assert c in s <==> s[0] == c || c in s[1..];
    }
  }

  /** `s.split(sep)` has a second piece exactly when `sep` occurs in `s`. */
  lemma SplitHasSecond(s: string, sep: char)
    ensures |Split(s, sep)| >= 2 <==> sep in s
  {
    CountPositive(s, sep);
  }

  /** Splitting cuts at the first separator: the first piece is everything
      before it and the remaining pieces are the split of what follows. */
  lemma {:induction false} SplitAtFirst(s: string, sep: char)
    requires sep in s
    ensures var i := FirstIndex(s, sep);
      Split(s, sep) == [s[..i]] + Split(s[i + 1..], sep)
  {
    if s[0] != sep {
      var j := FirstIndex(s[1..], sep);
      assert FirstIndex(s, sep) == j + 1;
      SplitAtFirst(s[1..], sep);
      var rest := Split(s[1..], sep);
      var tail := Split(s[j + 2..], sep);
      assert s[1..][j + 1..] == s[j + 2..];
      assert rest == [s[1..][..j]] + tail;
      assert Split(s, sep) == [[s[0]] + rest[0]] + rest[1..];
      assert [s[0]] + s[1..][..j] == s[..j + 1];
    }
  }

  /** A piece without the separator, then the separator: the piece comes
      first and the rest is split on. */
  lemma SplitAfterPiece(piece: string, rest: string, sep: char)
    requires sep !in piece
    ensures Split(piece + [sep] + rest, sep) == [piece] + Split(rest, sep)
  {
    var s := piece + [sep] + rest;
    assert s[|piece|] == sep && s[..|piece|] == piece && s[|piece| + 1..] == rest;
    var i := FirstIndex(s, sep);
    assert forall k | 0 <= k < |piece| :: s[k] == piece[k];
    assert forall k | 0 <= k < i :: s[..i][k] == s[k];
    SplitAtFirst(s, sep);
  }

  /** Text without the separator splits into itself alone. */
  lemma SplitWithoutSep(s: string, sep: char)
    requires sep !in s
    ensures Split(s, sep) == [s]
  {
    CountPositive(s, sep);
  }

  /** A string with no whitespace at either end is its own strip. */
  lemma StripUnchanged(s: string)
    requires s == [] || (!IsSpace(s[0]) && !IsSpace(s[|s| - 1]))
    ensures Strip(s) == s
  {
  }

  /** Stripping is idempotent. */
  lemma StripIdempotent(s: string)
    ensures Strip(Strip(s)) == Strip(s)
  {
    StripTrims(s);
    StripUnchanged(Strip(s));
  }
}

=== FILE: utils.dfy ===
/** Site constants, relative-to-absolute URL conversion and the membership
    assertion shared by the filters and the search entry point. */
module Utils {
  import opened Text
  import Wrappers

  /** Mirror domains serving the same catalogue. */
  const AvailableSiteUrls: seq<string> :=
    ["https://tvseries.in", "https://mobiletvshows.site/", "https://fztvseries.live/"]

  /** The domain every relative link is resolved against: the third mirror. */
  const DefaultSiteUrl: string := AvailableSiteUrls[2]

  lemma DefaultSiteIsThirdMirror()
    ensures |AvailableSiteUrls| == 3
    ensures DefaultSiteUrl == AvailableSiteUrls[2] == "https://fztvseries.live/"
    ensures DefaultSiteUrl[|DefaultSiteUrl| - 1] == '/'
  {
  }

  /** `posixpath.join(a, b)`: an absolute `b` replaces `a`; otherwise `b` is
      appended, with a `/` inserted only when `a` is non-empty and does not
      already end in one. */
  function PosixJoin(a: string, b: string): (r: string)
    ensures StartsWith(b, "/") ==> r == b
    ensures !StartsWith(b, "/") ==>
              && StartsWith(r, a) && |a| + |b| <= |r| <= |a| + |b| + 1
              && r[|r| - |b|..] == b
    ensures !StartsWith(b, "/") && a == [] ==> r == b
    ensures !StartsWith(b, "/") && a != [] ==> Count(r[|a| - 1..|r| - |b|], '/') == 1
    ensures !StartsWith(b, "/") ==> forall k | |a| <= k < |r| - |b| :: r[k] == '/'
  {
    if StartsWith(b, "/") then b
    else if a == [] || a[|a| - 1] == '/' then a + b
    else a + "/" + b
  }

  /** `get_absolute_url`: drop at most one leading `/`, then join onto the
      default site. A link without a leading slash is appended to the site;
      one leading slash is dropped first; a second one survives and then
      replaces the site. */
  function AbsoluteUrl(relative: string): (r: string)
    ensures !StartsWith(relative, "/") ==> r == DefaultSiteUrl + relative
    ensures StartsWith(relative, "/") && !StartsWith(relative[1..], "/") ==>
              r == DefaultSiteUrl + relative[1..]
    ensures StartsWith(relative, "/") && StartsWith(relative[1..], "/") ==> r == relative[1..]
  {
    var rest := if StartsWith(relative, "/") then relative[1..] else relative;
    PosixJoin(DefaultSiteUrl, rest)
  }

  /** A relative link without a leading slash lands under the default site. */
  lemma AbsoluteUrlOfRelative(r: string)
    requires !StartsWith(r, "/")
    ensures AbsoluteUrl(r) == "https://fztvseries.live/" + r
    ensures StartsWith(AbsoluteUrl(r), DefaultSiteUrl)
  {
    assert (DefaultSiteUrl + r)[..|DefaultSiteUrl|] == DefaultSiteUrl;
  }

  /** Exactly one leading slash is dropped: "/x" and "x" resolve alike. */
  lemma AbsoluteUrlDropsOneSlash(r: string)
    requires !StartsWith(r, "/")
    ensures AbsoluteUrl("/" + r) == AbsoluteUrl(r)
  {
    assert ("/" + r)[1..] == r;
  }

  /** The empty link resolves to the site itself. */
  lemma AbsoluteUrlOfEmpty()
    ensures AbsoluteUrl("") == DefaultSiteUrl
  {
  }

  /** Only one slash is dropped, so a protocol-relative link "//x" comes back
      as the root path "/x", which does not lie under the default site. */
  lemma AbsoluteUrlOfDoubleSlash(r: string)
    requires !StartsWith(r, "/")
    ensures AbsoluteUrl("//" + r) == "/" + r
    ensures !StartsWith(AbsoluteUrl("//" + r), DefaultSiteUrl)
  {
    assert ("//" + r)[1..] == "/" + r;
    DefaultSiteIsThirdMirror();
    assert DefaultSiteUrl[0] == 'h';
    if |"/" + r| >= |DefaultSiteUrl| {
      assert ("/" + r)[..|DefaultSiteUrl|][0] == '/';
    }
  }

  /** The failed membership assertion: who was checked, the offending value
      and the options it was checked against. */
  datatype MembershipError<T> = NotOneOf(identity: string, value: T, elements: seq<T>)

  /** `assert_membership(value, elements, identity)`: passes exactly when
      `value` is one of `elements`; the failure names `identity` and `value`. */
  function AssertMembership<T(==)>(value: T, elements: seq<T>, identity: string): (r: Wrappers.Option<MembershipError<T>>)
    ensures r.None? <==> value in elements
    ensures r.Some? ==> r.value.identity == identity && r.value.value == value
                        && r.value.elements == elements
  {
    if value in elements then Wrappers.None else Wrappers.Some(NotOneOf(identity, value, elements))
  }

  /** The identity used when the caller gives none. */
  const DefaultIdentity: string := "Value"
}

=== FILE: wrappers.dfy ===
/** Option and Result: the absent-value and error-carrying shapes used
    throughout the model in place of Python's None and exceptions. */
module Wrappers {

  /** Python's `None` versus a present value. */
  datatype Option<+T> = None | Some(value: T) {

    /** The value, or `default` when absent. */
    function GetOr(default: T): T {
      match this
      case Some(v) => v
      case None => default
    }
  }

  /** A computation that either produced a value or raised an error. */
  datatype Result<+R, +E> = Success(value: R) | Failure(error: E)
}
